=== FILE: README.md ===
# Kaldi data preparation and jitter-feature jobs, modelled in Dafny

The lyrics recipe of this repository separates the singing voice from a song,
then hands it to Kaldi. The separation itself (`local/audio_infer.py`,
`lyrics/s5/local/vsep/eval.py`) only configures and calls the asteroid
library's `LambdaOverlapAdd` and `ConvTasNet`. Those classes are library code,
not part of this model. The logic the repository owns is the string and path
handling around Kaldi, and that is what is modelled here.

- `prepare_data.py` writes a Kaldi data directory for one song. It derives the
  recording, utterance and speaker ids from the audio id and a gender. It writes
  the one-line `spk2gender`, `wav.scp`, `segments` and `utt2spk` files. `main`
  fixes the gender to `f`.
- `make_jitter.py` runs one voice-quality feature job:
  - it settles its options from an INI configuration and the command line;
  - it derives the job number, the scratch wav and the archive name from paths;
  - it turns each `segments` line, with its `wav.scp` source, into a
    "key, command" record;
  - it builds a feature matrix of the enabled measures, one row per frame;
  - it writes the matrix to a Kaldi text archive under the record's key.

Modules:

| module | file | models |
|---|---|---|
| `Results` | `results.dfy` | `Result` and `Option`, for exceptions and missing values |
| `Strings` | `strings.dfy` | Python's `str.split`, `split(sep, 1)`, `in`, `upper`/`lower`, `strip`, and reading a text file line by line |
| `PosixPath` | `posix_path.dfy` | `os.path.join` and `split('/')[-1]` on POSIX paths |
| `KaldiData` | `kaldi_data.dfy` | `prepare_data.py`: ids, the four lines, `main` |
| `JitterOptions` | `jitter_options.dfy` | `make_jitter.py`'s main block: configuration, options, job number, file names |
| `JitterRecords` | `jitter_records.dfy` | `segments` parsing, the `wav.scp` lookup, record strings |
| `JitterFeatures` | `jitter_features.dfy` | the feature vector, tiling, and `write_feat2file` |
| `DataToArchive` | `data_to_archive.dfy` | a prepared song's files, read by a segment-mode job, down to its archive entry |

Inputs the model cannot compute are parameters:
- the audio duration text (`sf.info`);
- `float(end) - float(start)` as a function `trimLength` that may fail;
- the Praat measurements and the librosa frame count;
- every numeric value in the archive, kept as an opaque, already formatted string.

## Model

| member | source | states |
|---|---|---|
| Strings.Split | lyrics/s5/local/features/make_jitter.py:157 | `str.split(c)` gives at least one piece, none holding `c`; joining the pieces with `c` gives the input back; there is one piece exactly when `c` does not occur |
| Strings.SplitJoin | lyrics/s5/local/features/make_jitter.py:157 | splitting the join of pieces that avoid the separator gives exactly those pieces |
| Strings.JoinCount | lyrics/s5/local/features/make_jitter.py:157 | joining separator-free parts puts exactly one separator between each two, so `split` gives one more piece than there are separators |
| Strings.SplitOnce | lyrics/s5/local/features/make_jitter.py:158 | `split(c, 1)` gives one piece when `c` is absent and two otherwise; the first avoids `c`, and joining them gives the input |
| Strings.SplitOnceAgreesWithSplit | lyrics/s5/local/features/make_jitter.py:49 | `split(c, 1)` and `split(c)` agree on the first piece, and the second piece of `split(c, 1)` is the rest of `split(c)` joined back |
| Strings.ContainsIffOccurs | lyrics/s5/local/features/make_jitter.py:100 | the substring test `in` holds exactly when the needle occurs at some position |
| Strings.Upper | lyrics/s5/local/prepare_data.py:11 | `upper()` keeps the length and maps each lower-case letter to its capital, leaving other characters alone |
| Strings.Rstrip | lyrics/s5/local/features/make_jitter.py:153 | `rstrip()` keeps a prefix that does not end in whitespace and drops only whitespace |
| Strings.Lstrip | lyrics/s5/local/features/make_jitter.py:232 | `lstrip()` keeps a suffix that does not start in whitespace and drops only whitespace |
| Strings.StrippedLines | lyrics/s5/local/features/make_jitter.py:153-154 | `[f.rstrip() for f in open(path)]`: one entry per line of the file, each the line right-stripped, so free of newlines and of trailing whitespace |
| Strings.FileLines | lyrics/s5/local/features/make_jitter.py:153-154 | iterating over a file gives its lines without their newlines: there are none exactly when the file is empty, and joining them with newlines gives the file back, possibly short of one final newline (`LineCount` counts them, `ReadBackLines` is the inverse) |
| Strings.LineCount | lyrics/s5/local/features/make_jitter.py:153-154 | a file has one line per newline, plus one when text follows the last newline; a final newline does not start an empty line |
| Strings.ReadBackLines | lyrics/s5/local/features/make_jitter.py:153-154 | lines with no newline and no trailing whitespace, written joined by newlines, are read back as those lines, with or without a final newline |
| PosixPath.PathJoin | lyrics/s5/local/features/make_jitter.py:235-236 | `os.path.join(a, b)` is `b` when `b` is absolute; otherwise it is `a + b` when `a` is empty or ends in `/`, and `a + "/" + b` when it does not |
| PosixPath.PathJoin3 | lyrics/s5/local/features/make_jitter.py:129 | `os.path.join(a, b, c)` ends in `c` and is `c` when `c` is absolute; it starts with `a` when neither `b` nor `c` is absolute, and with `b` when only `b` is; it is `a/b/c` when `a` and `b` are non-empty and do not end in `/` and neither `b` nor `c` is absolute |
| PosixPath.LastComponent | lyrics/s5/local/features/make_jitter.py:140 | `split('/')[-1]` is a slash-free suffix of the path, preceded by a `/` unless it is the whole path |
| PosixPath.LastComponentOfJoin | lyrics/s5/local/features/make_jitter.py:129 | the last component of `os.path.join(dir, name)` is `name` for a slash-free name, whatever `dir` is |
| KaldiData.DecodeId | lyrics/s5/local/prepare_data.py:11-13 | the inverse of id derivation: whatever it decodes rebuilds the id it was given |
| KaldiData.IdRoundTrip | lyrics/s5/local/prepare_data.py:11-13 | every recording, utterance or speaker id decodes to the kind and the audio id it was made from, for every audio id and gender |
| KaldiData.IdInjective | lyrics/s5/local/prepare_data.py:11-13 | two ids made with one gender are equal exactly when their kinds and audio ids are |
| KaldiData.IdsPairwiseDistinct | lyrics/s5/local/prepare_data.py:11-13 | a song's recording, utterance and speaker ids are pairwise distinct |
| KaldiData.MakeId | lyrics/s5/local/prepare_data.py:11-13 | an id starts with the audio id and ends in the kind's tag and the upper-cased gender, with nothing between; `DecodeId` is its inverse |
| KaldiData.Spk2GenderLine | lyrics/s5/local/prepare_data.py:16-18 | the `spk2gender` line splits into the speaker id and the gender as given, not upper-cased |
| KaldiData.WavSource | lyrics/s5/local/prepare_data.py:21-22 | the sox source of `wav.scp` starts with `sox ` and ends in the fixed 16 kHz mono options |
| KaldiData.WavScpLine | lyrics/s5/local/prepare_data.py:21-22 | the `wav.scp` line starts with the recording id, `sox` and the audio path, ends in the fixed options, and splits once into the recording id and the sox source |
| KaldiData.SegmentsLine | lyrics/s5/local/prepare_data.py:27-28 | the `segments` line splits into exactly four fields: utterance id, recording id, `0.0`, duration |
| KaldiData.Utt2SpkLine | lyrics/s5/local/prepare_data.py:33 | the `utt2spk` line splits into the utterance id and the speaker id |
| KaldiData.FilesAgree | lyrics/s5/local/prepare_data.py:16-33 | the segment's recording is the `wav.scp` key; `utt2spk` is keyed by the segment's utterance; its speaker is the `spk2gender` key |
| KaldiData.MainSong | lyrics/s5/local/prepare_data.py:39 | with the gender `main` fixes, every id of the song ends in `-F` |
| KaldiData.FileNamesInDir | lyrics/s5/local/prepare_data.py:17-34 | each file is written under the data directory with its own fixed name as last component |
| KaldiData.PrepareData | lyrics/s5/local/prepare_data.py:38-43 | `main` writes four files, `spk2gender`, `wav.scp`, `segments`, `utt2spk`, in that order, each at `os.path.join(datadir, name)` and holding its one line: the speaker-gender, recording-source, segment and utterance-speaker lines of the song with gender `f` |
| KaldiData.FilesInDir | lyrics/s5/local/prepare_data.py:17-34 | the files are named by `os.path.join(datadir, name)` in the fixed order, and hold the given contents in that order |
| JitterOptions.LoadedConfig | lyrics/s5/local/features/make_jitter.py:224-226 | with `--jitter_conf` the configuration is the file's; without it no file is read and the configuration is empty, with no sections and no DEFAULT options |
| JitterOptions.HasOption | lyrics/s5/local/features/make_jitter.py:228 | `key in config[section]` holds exactly when the key is in the section's view: DEFAULT's options overridden by the section's own |
| JitterOptions.GetOption | lyrics/s5/local/features/make_jitter.py:228 | `config[section].get(key)` is the key's value in the section's view, the section's own value winning over DEFAULT's |
| JitterOptions.ParseBoolean | lyrics/s5/local/features/make_jitter.py:242-245 | `getboolean` is true exactly for `1`, `yes`, `true`, `on` and false exactly for `0`, `no`, `false`, `off`, in any letter case |
| JitterOptions.ParseInt | lyrics/s5/local/features/make_jitter.py:232 | `getint` accepts exactly an optional sign followed by one or more ASCII digits, once surrounding whitespace is stripped; a negative value needs a leading minus (`ParseDigits`, `ParseNegative` and `ParseIntRoundTrip` give the values) |
| JitterOptions.ParseIntRoundTrip | lyrics/s5/local/features/make_jitter.py:232 | `getint` reads every integer's signed decimal text back as that integer |
| JitterOptions.ResolveMode | lyrics/s5/local/features/make_jitter.py:228 | a missing `[data]` section is a `KeyError`; otherwise the mode is `[data] mode` (its own or DEFAULT's) when set, and `--mode` when not |
| JitterOptions.ResolveSampleRate | lyrics/s5/local/features/make_jitter.py:232 | the rate is `[data] sample_rate` read as an integer when set, otherwise `--sr`; an unreadable value is an error naming the value |
| JitterOptions.ResolveFlag | lyrics/s5/local/features/make_jitter.py:242 | a flag absent from `[default]` is true; a present one succeeds exactly when `getboolean` accepts its value, with the value `getboolean` gives, and fails naming the key and the value otherwise |
| JitterOptions.ResolveFlags | lyrics/s5/local/features/make_jitter.py:242-245 | the four flags are read in order from `[default]`; a missing section is a `KeyError` for `default` |
| JitterOptions.FlagsReportFirstError | lyrics/s5/local/features/make_jitter.py:242-245 | the flags resolve exactly when each of `add_jitta`, `add_ddp`, `add_shimmer`, `add_hnr` does; otherwise the error is that of the first one, in this order, that does not |
| JitterOptions.ResolveConfig | lyrics/s5/local/features/make_jitter.py:228-245 | a missing `[data]` section is a `KeyError`; a resolved job never runs segment mode without a segment file; it has the mode, sample rate and flags of the configuration; the log file and feature directory are the given ones, or `DefaultLogfile` and `DefaultFeatdir` of the data directory when not given; the job number is the log name's and is `01` for the default log |
| JitterOptions.ResolveAsWritten | lyrics/s5/local/features/make_jitter.py:224-228 | the script as written fails with `KeyError: 'data'` whenever `--jitter_conf` is not given, and agrees with `Resolve` whenever both sections exist |
| JitterOptions.WithSections | lyrics/s5/local/features/make_jitter.py:228 | the correction: absent `[data]` and `[default]` sections become empty ones, and everything else is kept |
| JitterOptions.Resolve | lyrics/s5/local/features/make_jitter.py:224-245 | the corrected resolution never fails on a missing section; it takes mode, sample rate, flags, log file and feature directory as `ResolveConfig` does over the completed configuration; without a configuration file it takes `--mode` and `--sr` and enables every measure, and it runs whenever segment mode has its segment file and the log is the default |
| JitterOptions.NoConfigResolves | lyrics/s5/local/features/make_jitter.py:225-245 | with the missing sections read as empty, a job without a configuration file takes the command-line mode and rate with every measure on, and runs when segment mode has its segment file and the log is the default |
| JitterOptions.MinimalCommandLine | lyrics/s5/local/features/make_jitter.py:209-228 | the minimal documented command line fails as written and runs in segment mode once corrected |
| JitterOptions.ModeSource | lyrics/s5/local/features/make_jitter.py:228 | the mode is the configuration's `[data] mode` (or DEFAULT's) when present, and `--mode` only when absent |
| JitterOptions.FlagsDefaultOn | lyrics/s5/local/features/make_jitter.py:242-245 | each of the four flags absent from the configuration is on; each present one is on exactly when its value is a true word |
| JitterOptions.DefaultLogfile | lyrics/s5/local/features/make_jitter.py:235 | the default log path is `<datadir>/log/make_jitter.01.log`, without a doubled slash when the data directory ends in one, and `log/make_jitter.01.log` for an empty data directory |
| JitterOptions.DefaultFeatdir | lyrics/s5/local/features/make_jitter.py:236 | the default feature directory is `<datadir>/jitter` (no doubled slash; `jitter` for an empty data directory), so its last component is `jitter` |
| JitterOptions.JobNumber | lyrics/s5/local/features/make_jitter.py:240 | the job number has no dot, and is an `IndexError` exactly when the log path has no dot |
| JitterOptions.JobNumberOfOneDot | lyrics/s5/local/features/make_jitter.py:240 | with a single dot, as in `job.log`, the job number is everything before the dot |
| JitterOptions.JobNumberOfName | lyrics/s5/local/features/make_jitter.py:240 | a path `front.nj.ext` has job number `nj` whatever the front holds |
| JitterOptions.JobNumberOfSuffix | lyrics/s5/local/features/make_jitter.py:240 | any path ending in `.nj.ext` has job number `nj` |
| JitterOptions.DefaultLogfileJob | lyrics/s5/local/features/make_jitter.py:235-240 | the default log file gives job number `01` for every data directory |
| JitterOptions.TmpWavName | lyrics/s5/local/features/make_jitter.py:126-129 | the scratch wav's last component is `tmp.<nj>.wav`, and the job number reads back from it |
| JitterOptions.TmpWav | lyrics/s5/local/features/make_jitter.py:126-129 | the scratch wav is `<featdir>/tmp/tmp.<nj>.wav`, inside the feature directory, without a doubled slash when the feature directory ends in one |
| JitterOptions.ArchivePath | lyrics/s5/local/features/make_jitter.py:140 | the archive is `<featdir>/raw_jitter_<data set>.<nj>.txt`, inside the feature directory, without a doubled slash when the feature directory ends in one |
| JitterOptions.ArchiveFileName | lyrics/s5/local/features/make_jitter.py:140 | the archive name starts with `raw_jitter_` and the data directory's last component, ends in `.<nj>.txt`, and has no slash when the job number has none |
| JitterOptions.ArchiveName | lyrics/s5/local/features/make_jitter.py:140 | the archive's file name is `raw_jitter_`, the data directory's last component, the job number, `.txt` |
| JitterOptions.ArchiveJobNumber | lyrics/s5/local/features/make_jitter.py:140 | the job number reads back from the archive path |
| JitterRecords.ParseSegment | lyrics/s5/local/features/make_jitter.py:157 | a `segments` line unpacks exactly when it has four space-separated fields, otherwise it is an unpacking error; the fields rebuild the line |
| JitterRecords.SegmentRoundTrip | lyrics/s5/local/features/make_jitter.py:157 | a segment with space-free fields is read back from the line it is written as |
| JitterRecords.FindContaining | lyrics/s5/local/features/make_jitter.py:158 | finds the first line containing the id, or reports that none does |
| JitterRecords.LookupWav | lyrics/s5/local/features/make_jitter.py:158 | an `IndexError` exactly when no `wav.scp` line contains the recording id; otherwise, for the first line that does, the text after its first space when it has one, and an unpacking error naming that line exactly when it has none |
| JitterRecords.LookupKeyValue | lyrics/s5/local/features/make_jitter.py:158 | when the first matching line is `key value` with a space-free key, the lookup gives `value`, spaces and all |
| JitterRecords.LookupMatchesInsideKeys | lyrics/s5/local/features/make_jitter.py:158 | matching is by substring: a line for `xa_rec-F` shadows the line for `a_rec-F` when it comes first |
| JitterRecords.RecordOf | lyrics/s5/local/features/make_jitter.py:157-160 | an unpackable segment line, an unknown or malformed recording and an unreadable time pair each stop with their own error, in that order; when all three succeed the record is `BuildRecord` of the utterance id and the trim command |
| JitterRecords.TrimCommand | lyrics/s5/local/features/make_jitter.py:159-160 | the command starts with the recording's source piped into `sox`, and ends in `-t wav - -t wav <scratch wav> trim <start> <length>`, so sox writes the trimmed audio to the scratch wav |
| JitterRecords.CollectAll | lyrics/s5/local/features/make_jitter.py:155-160 | the append loop gives every value in order when all succeed, and otherwise the error of the first that fails |
| JitterRecords.BuildRecordings | lyrics/s5/local/features/make_jitter.py:152-160 | one record per `segments` line, in order, or the error of the first line without one |
| JitterRecords.JobRecordings | lyrics/s5/local/features/make_jitter.py:151-166 | segment mode builds the records; any other mode takes the `wav.scp` lines unchanged |
| JitterRecords.RecordKey | lyrics/s5/local/features/make_jitter.py:172 | the key is the comma-free prefix before the first comma, or the whole record when it has none |
| JitterRecords.RecordCommand | lyrics/s5/local/features/make_jitter.py:49 | the command is everything after the first comma, so key, comma and command rebuild the record |
| JitterRecords.BuildRecord | lyrics/s5/local/features/make_jitter.py:159-172 | a record splits back into its comma-free utterance id and its command, the command keeping its leading space and its own commas |
| JitterRecords.CommaInKeyTruncates | lyrics/s5/local/features/make_jitter.py:172 | an utterance id with a comma is cut short at the comma in the archive |
| JitterFeatures.Select | lyrics/s5/local/features/make_jitter.py:76-89 | the selected measures are exactly the enabled ones among those given |
| JitterFeatures.SelectIncreasing | lyrics/s5/local/features/make_jitter.py:76-89 | selection keeps the relative order of the measures |
| JitterFeatures.ColumnsOrdered | lyrics/s5/local/features/make_jitter.py:76-89 | the columns are exactly the enabled measures, each once, in the order jitta, ddp, shimmer, hnr; there are none exactly when every flag is off |
| JitterFeatures.ColumnsAre | lyrics/s5/local/features/make_jitter.py:76-89 | the columns are the four conditional appends in order |
| JitterFeatures.FeatureVector | lyrics/s5/local/features/make_jitter.py:76-89 | the appended vector holds, at each column, that column's measurement |
| JitterFeatures.Tile | lyrics/s5/local/features/make_jitter.py:92 | `np.tile(row, (n, 1))` has `n` rows, each the row |
| JitterFeatures.Feature | lyrics/s5/local/features/make_jitter.py:91-92 | the matrix has one row per frame and one column per enabled measure holding its value; stacking fails exactly when no measure is enabled |
| JitterFeatures.Marked | lyrics/s5/local/features/make_jitter.py:100 | the test `'-F' in feat or '-M' in feat` holds exactly when a left-to-right scan of the key finds a `-` immediately followed by `F` or `M` |
| JitterFeatures.ScanMarker | lyrics/s5/local/features/make_jitter.py:100 | the substring test for a two-character marker agrees with that scan |
| JitterFeatures.MarkedAt | lyrics/s5/local/features/make_jitter.py:100 | a key is marked exactly when some position in it holds a `-` followed by `F` or `M` |
| JitterFeatures.RemoveBrackets | lyrics/s5/local/features/make_jitter.py:106-108 | removing brackets leaves no bracket, adds no character, and changes nothing without brackets |
| JitterFeatures.RemoveBracketsAppend | lyrics/s5/local/features/make_jitter.py:106-108 | removing brackets from a concatenation removes them from each part separately |
| JitterFeatures.RenderRowPlain | lyrics/s5/local/features/make_jitter.py:106-108 | a row whose values hold no brackets renders as exactly its values joined by spaces |
| JitterFeatures.RenderRow | lyrics/s5/local/features/make_jitter.py:106-108 | a rendered row holds no bracket and only characters of its space-separated values (`RenderRowPlain` gives it exactly for bracket-free values) |
| JitterFeatures.RowText | lyrics/s5/local/features/make_jitter.py:104-108 | every row line starts with two spaces and holds no `[`; it holds a `]` exactly when it is the last row's, and every other row line ends in a space |
| JitterFeatures.WriteRowsFrom | lyrics/s5/local/features/make_jitter.py:104-108 | the rows from a position on write nothing exactly when none remain, and otherwise text that starts with two spaces and ends in a newline, with no `[` and with a `]` (`RowsAsLines` gives it as lines) |
| JitterFeatures.WriteItem | lyrics/s5/local/features/make_jitter.py:100-108 | a key with `-F` or `-M` is written followed by `  [`; a matrix never fails; another key fails unless it is empty, reporting the key |
| JitterFeatures.WriteFeat2File | lyrics/s5/local/features/make_jitter.py:97-108 | the writer succeeds exactly when every element does |
| JitterFeatures.ThenAssociative | lyrics/s5/local/features/make_jitter.py:183 | writing stops at the first failure however the writes are grouped |
| JitterFeatures.WriteFeat2FileAppend | lyrics/s5/local/features/make_jitter.py:97-108 | writing two lists in turn is writing their concatenation |
| JitterFeatures.WriteEntry | lyrics/s5/local/features/make_jitter.py:100-108 | a marked key and its matrix write the key line, then the rows, without failure |
| JitterFeatures.EntryText | lyrics/s5/local/features/make_jitter.py:100-108 | the entry is its lines joined by newlines, with a final newline |
| JitterFeatures.EntryLayout | lyrics/s5/local/features/make_jitter.py:100-108 | the entry's lines are the key line ending in `  [`, then each row line starting with two spaces, all but the last ending in a space and the last in ` ]` |
| JitterFeatures.EntryFailure | lyrics/s5/local/features/make_jitter.py:100-103 | one record's entry fails exactly when its key is not writable, reporting that key |
| JitterFeatures.FirstUnwritable | lyrics/s5/local/features/make_jitter.py:168-183 | finds the first key the writer rejects, or reports that every key is writable |
| JitterFeatures.Items | lyrics/s5/local/features/make_jitter.py:171-182 | the writer gets two elements per record, in record order: the record's key (`record.split(',')[0]`) at each even position and its feature matrix at the following odd one |
| JitterFeatures.JobArchive | lyrics/s5/local/features/make_jitter.py:168-183 | one writer call per record writes what one call over all the records' keys and matrices would |
| JitterFeatures.JobArchiveStep | lyrics/s5/local/features/make_jitter.py:168-183 | a job fails at its first record when that key is not writable, and otherwise as the rest of the job does |
| JitterFeatures.JobArchiveFailure | lyrics/s5/local/features/make_jitter.py:168-183 | a job writes every record when all keys are writable, and otherwise stops at the first unwritable key, reporting it |
| DataToArchive.MainIdsMarked | lyrics/s5/local/features/make_jitter.py:100 | every id the preparation script derives carries the `-F` marker the archive writer looks for |
| DataToArchive.OneLineFile | lyrics/s5/local/prepare_data.py:18 | a file holding one stripped line with no final newline is read back as that line |
| DataToArchive.PreparedFiles | lyrics/s5/local/prepare_data.py:20-30 | the prepared `wav.scp` and `segments` files are read by the job as their single lines |
| DataToArchive.PreparedOneLineEach | lyrics/s5/local/prepare_data.py:16-35 | each of the four prepared files holds one line, with no final newline and no trailing whitespace, so it reads back as its own content |
| DataToArchive.WavScpLineRead | lyrics/s5/local/prepare_data.py:21-24 | the `wav.scp` line, ending in the pipe sign, reads back unchanged |
| DataToArchive.SegmentsLineRead | lyrics/s5/local/prepare_data.py:28-30 | the `segments` line, ending in the duration, reads back unchanged |
| DataToArchive.PreparedSegment | lyrics/s5/local/features/make_jitter.py:157 | the prepared `segments` line parses to the song's utterance, recording, `0.0` and duration |
| DataToArchive.PreparedSource | lyrics/s5/local/features/make_jitter.py:158 | looking the song's recording up in its `wav.scp` gives its sox source |
| DataToArchive.PreparedKey | lyrics/s5/local/features/make_jitter.py:172 | the song's record key is its utterance id, which the writer takes for a key |
| DataToArchive.PreparedRecord | lyrics/s5/local/features/make_jitter.py:152-160 | a segment-mode job over a prepared song builds one record, keyed by the utterance id, running the sox source into a trim of the recording |
| DataToArchive.PreparedEntry | lyrics/s5/local/features/make_jitter.py:97-108 | the song's archive entry is the utterance id line ending in `  [`, then one line per frame |
| DataToArchive.WavScpModeKey | lyrics/s5/local/features/make_jitter.py:163-173 | in `wavscp` mode the key computed and logged at line 172 for a prepared song is its whole `wav.scp` line, sox command included, and it carries the `-F` marker |

## Left out

- The separation engine (`LambdaOverlapAdd`, `ConvTasNet`) and the rest of `local/audio_infer.py` and `lyrics/s5/local/vsep/eval.py`: library calls, argument parsing, device placement and file I/O. The peak normalisation there is floating-point arithmetic.
- Praat, parselmouth and librosa (`make_jitter.py:59-91`): the measurements and the frame count are inputs to `Feature`.
- `extract_jitter`'s sox call and sound loading (`make_jitter.py:45-65`): process execution and file existence checks; the command it runs is `RecordCommand`.
- `wavscp` mode past the key: `extract_jitter` (line 179) runs the whole `wav.scp` line as a shell command (line 49) and, with no segments, indexes a second comma-separated field that is not there (line 62), so it fails before anything is written; the model stops at the key of line 172.
- `float(end) - float(start)` and `sf.info(...).duration`: floating point, so the trim length is a function parameter and the duration an opaque string.
- `np.nan_to_num` and `%.6f` formatting: values are opaque, already formatted strings.
- JitterFeatures.RenderRow: renders a row as one line of space-separated values, because `np.array2string` wraps rows longer than 75 characters, which the model does not do.
- JitterFeatures.WriteItem: a non-empty key without `-F` or `-M` is an error. Numpy iterates the key's characters and `array2string` rejects a plain string; the exact exception depends on the numpy version, so only the failure is modelled.
- Strings.Upper and Strings.Lower: map ASCII letters only; Python also maps non-ASCII letters, and some expand (`ß` to `SS`).
- JitterOptions.ParseInt: accepts an optional sign and ASCII digits; Python's `int` also accepts `_` between digits and non-ASCII decimal digits.
- Strings.FileLines: splits on `\n` only; Python's universal newlines also treat `\r` and `\r\n` as line ends.
- configparser's file parsing, option-name lower-casing and interpolation: `Config` is the already parsed result.
- argparse: the usage text, `--version`, the `choices` check on `--mode` and the `int` conversion of `--sr`; `Args` holds the already parsed values. The `--audio_id` default `None` of `prepare_data.py` is not modelled; the audio id is a string. A bare `--jitter_conf` given without a value is `None` (`make_jitter.py:209-210` sets no `const`), and `len` of it raises a `TypeError` at line 225; `Args.jitterConf` is a string, so that failure is not modelled.
- Logging, `print`, timestamps, the progress message every ten records, `create_folder`, `os.remove` and all file opening and writing: the written content is modelled as values. A log path without a directory part, such as `job.01.log`, makes line 249 call `os.makedirs("")`, which raises `FileNotFoundError`; `ResolveConfig` resolves that case with job number `01` and does not model the failure.

## Findings

| source | as written | input that shows it | evidently intended | confidence | as-written member | corrected member |
|---|---|---|---|---|---|---|
| lyrics/s5/local/features/make_jitter.py:224-228 | the configuration file is read only when `--jitter_conf` is given, but `config['data']` (and later `config['default']`) is indexed unconditionally | `make_jitter.py data/train --segfile seg.1` without `--jitter_conf`: `KeyError: 'data'` | without a configuration file, or without one of its sections, the command-line mode and sample rate and the default flags apply, as the usage text and the guard on line 225 suggest | medium, not executed | JitterOptions.ResolveAsWritten, JitterOptions.MinimalCommandLine | JitterOptions.Resolve |

=== FILE: data_to_archive.dfy ===
/**
 * The two scripts together: the data directory the preparation script writes
 * for a song is read by a segment-mode jitter job, which builds one record
 * keyed by the song's utterance id; because the preparation script fixes the
 * gender to `f`, that key carries the `-F` marker the archive writer looks
 * for, so the song's matrix is written under it.
 */
module DataToArchive {
  import opened Results
  import opened Strings
  import opened KaldiData
  import opened JitterRecords
  import opened JitterFeatures

  /** An id written with the fixed gender is recognised as a key by the archive writer. */
  lemma MainIdsMarked(audioId: string, audio: string, datadir: string, kind: IdKind)
    ensures Marked(IdOf(MainSong(audioId, audio, datadir), kind))
  {
    var id := IdOf(MainSong(audioId, audio, datadir), kind);
    assert EndsWith(id, "-F");
    assert OccursAt(id, "-F", |id| - 2);
    ContainsOccurrence(id, "-F", |id| - 2);
  }

  /** What a song's audio id, audio path and duration text must avoid for its files to read back as written. */
  predicate Readable(audioId: string, audio: string, duration: string) {
    && ' ' !in audioId && ',' !in audioId && '\n' !in audioId
    && '\n' !in audio
    && |duration| > 0 && ' ' !in duration && '\n' !in duration && Stripped(duration)
  }

  /** A one-line file without a final newline is read as that one line. */
  lemma OneLineFile(line: string)
    requires |line| > 0 && '\n' !in line && Stripped(line)
    ensures StrippedLines(line) == [line]
  {
    ReadBackLines([line], false);
    assert Join([line], '\n') + "" == line;
  }

  /** The `wav.scp` and `segments` files of a song, as the job reads them. */
  lemma PreparedFiles(audioId: string, audio: string, datadir: string, duration: string)
    requires Readable(audioId, audio, duration)
    ensures var files := PrepareData(audioId, audio, datadir, duration);
      var s := MainSong(audioId, audio, datadir);
      && StrippedLines(files[1].content) == [WavScpLine(s)]
      && StrippedLines(files[2].content) == [SegmentsLine(s, duration)]
  {
    var s := MainSong(audioId, audio, datadir);
    var files := PrepareData(audioId, audio, datadir, duration);
    assert files[1].content == WavScpLine(s);
    assert files[2].content == SegmentsLine(s, duration);
    WavScpLineRead(s);
    SegmentsLineRead(s, duration);
  }

  /**
   * Each of the four files holds exactly one line, with no final newline and
   * no trailing whitespace, so it reads back as its own content.
   */
  lemma PreparedOneLineEach(audioId: string, audio: string, datadir: string, duration: string)
    requires Readable(audioId, audio, duration)
    ensures var files := PrepareData(audioId, audio, datadir, duration);
      forall i :: 0 <= i < |files| ==> StrippedLines(files[i].content) == [files[i].content]
  {
    var s := MainSong(audioId, audio, datadir);
    var files := PrepareData(audioId, audio, datadir, duration);
    PreparedFiles(audioId, audio, datadir, duration);
    Spk2GenderLineRead(s);
    Utt2SpkLineRead(s);
    EachOneLine(files);
  }

  lemma EachOneLine(files: seq<KaldiFile>)
    requires |files| == 4
    requires StrippedLines(files[0].content) == [files[0].content]
    requires StrippedLines(files[1].content) == [files[1].content]
    requires StrippedLines(files[2].content) == [files[2].content]
    requires StrippedLines(files[3].content) == [files[3].content]
    ensures forall i :: 0 <= i < |files| ==> StrippedLines(files[i].content) == [files[i].content]
  {
    forall i | 0 <= i < |files|
      ensures StrippedLines(files[i].content) == [files[i].content]
    {
      assert i == 0 || i == 1 || i == 2 || i == 3;
    }
  }

  /** The `spk2gender` line ends in the gender `f` and is one line when the audio id is. */
  lemma Spk2GenderLineRead(s: Song)
    requires '\n' !in s.audioId && s.gender == MainGender
    ensures StrippedLines(Spk2GenderLine(s)) == [Spk2GenderLine(s)]
  {
    var line := Spk2GenderLine(s);
    assert Upper(s.gender) == "F";
    assert line == s.audioId + "_spk-F f";
    assert line[|line| - 1] == 'f';
    OneLineFile(line);
  }

  /** The `utt2spk` line ends in the speaker id's `F` and is one line when the audio id is. */
  lemma Utt2SpkLineRead(s: Song)
    requires '\n' !in s.audioId && s.gender == MainGender
    ensures StrippedLines(Utt2SpkLine(s)) == [Utt2SpkLine(s)]
  {
    var utt := s.audioId + "_01-F";
    var spk := s.audioId + "_spk-F";
    assert Upper(s.gender) == "F";
    assert UttId(s) == utt && SpkId(s) == spk;
    PairLineRead(utt, spk);
  }

  /** Two newline-free fields joined by a space, the second ending in a visible character, are one line. */
  lemma PairLineRead(a: string, b: string)
    requires '\n' !in a && '\n' !in b && |b| > 0 && !IsSpace(b[|b| - 1])
    ensures StrippedLines(a + " " + b) == [a + " " + b]
  {
    var line := a + " " + b;
    assert line[|line| - 1] == b[|b| - 1];
    OneLineFile(line);
  }

  /** The `wav.scp` line ends in `|` and is one line when the id and the audio path are. */
  lemma WavScpLineRead(s: Song)
    requires '\n' !in s.audioId && '\n' !in s.audio && s.gender == MainGender
    ensures StrippedLines(WavScpLine(s)) == [WavScpLine(s)]
  {
    WavScpLineAvoids(s, '\n');
    assert Stripped(WavScpOptions);
    StrippedSuffix(WavScpLine(s), WavScpOptions);
    OneLineFile(WavScpLine(s));
  }

  /** The `segments` line ends in the duration and is one line when the id and the duration are. */
  lemma SegmentsLineRead(s: Song, duration: string)
    requires '\n' !in s.audioId && s.gender == MainGender
    requires |duration| > 0 && '\n' !in duration && Stripped(duration)
    ensures StrippedLines(SegmentsLine(s, duration)) == [SegmentsLine(s, duration)]
  {
    var line := SegmentsLine(s, duration);
    var head := UttId(s) + " " + RecId(s) + " " + SegmentStart + " ";
    HeadAvoids(s, '\n');
    assert line == head + duration;
    EndsWithConcat(head, duration);
    StrippedSuffix(line, duration);
    OneLineFile(line);
  }

  /** The head of the `segments` line avoids a character the audio id avoids. */
  lemma HeadAvoids(s: Song, c: char)
    requires c !in s.audioId && c !in " 0._rec-01F" && s.gender == MainGender
    ensures c !in UttId(s) + " " + RecId(s) + " " + SegmentStart + " "
  {
    assert Upper(s.gender) == "F";
  }

  /** The song's `segments` line names its utterance and recording, from `0.0` to the duration. */
  lemma PreparedSegment(s: Song, duration: string)
    requires SpaceFree(s) && ' ' !in duration
    ensures ParseSegment(SegmentsLine(s, duration)) == Ok(Segment(UttId(s), RecId(s), SegmentStart, duration))
  {
    assert Split(SegmentsLine(s, duration), ' ') == [UttId(s), RecId(s), SegmentStart, duration];
  }

  /** Looking the song's recording up in its one-line `wav.scp` finds the sox pipe. */
  lemma PreparedSource(s: Song)
    requires SpaceFree(s)
    ensures LookupWav([WavScpLine(s)], RecId(s)) == Ok(WavSource(s))
  {
    var line := WavScpLine(s);
    var source := WavSource(s);
    assert OccursAt(line, RecId(s), 0);
    ContainsOccurrence(line, RecId(s), 0);
    IdSpaceFree(s, Recording);
    LookupKeyValue([line], RecId(s), 0, RecId(s), source);
  }

  /**
   * A job over the song's `wav.scp` and `segments` files builds one record:
   * it is keyed by the utterance id, marked as a key, and runs the `wav.scp`
   * sox pipe into a trim of the whole recording.
   */
  lemma PreparedRecord(
    audioId: string, audio: string, datadir: string, duration: string,
    tmpWav: string, trimLength: (string, string) -> Option<string>, length: string)
    requires Readable(audioId, audio, duration)
    requires trimLength(SegmentStart, duration) == Some(length)
    ensures var files := PrepareData(audioId, audio, datadir, duration);
      var s := MainSong(audioId, audio, datadir);
      var wavscp := StrippedLines(files[1].content);
      var segments := StrippedLines(files[2].content);
      && |segments| == 1
      && RecordOf(wavscp, segments[0], tmpWav, trimLength).Ok?
      && var record := RecordOf(wavscp, segments[0], tmpWav, trimLength).value;
      && RecordKey(record) == UttId(s)
      && Marked(RecordKey(record))
      && RecordCommand(record) == " " + TrimCommand(WavSource(MainSong(audioId, audio, datadir)), tmpWav, SegmentStart, length)
  {
    var s := MainSong(audioId, audio, datadir);
    PreparedFiles(audioId, audio, datadir, duration);
    PreparedSegment(s, duration);
    PreparedSource(s);
    var command := TrimCommand(WavSource(MainSong(audioId, audio, datadir)), tmpWav, SegmentStart, length);
    assert RecordOf([WavScpLine(s)], SegmentsLine(s, duration), tmpWav, trimLength) == Ok(BuildRecord(UttId(s), command));
    PreparedKey(audioId, audio, datadir, command);
  }

  /** A record of the song is keyed by its utterance id, which the archive writer takes for a key. */
  lemma PreparedKey(audioId: string, audio: string, datadir: string, command: string)
    requires ',' !in audioId
    ensures var id := UttId(MainSong(audioId, audio, datadir));
      && RecordKey(BuildRecord(id, command)) == id
      && RecordCommand(BuildRecord(id, command)) == " " + command
      && Marked(id)
  {
    var s := MainSong(audioId, audio, datadir);
    UpperAvoids(s.gender, ',');
    assert ',' !in UttId(s);
    MainIdsMarked(audioId, audio, datadir, Utterance);
  }

  /**
   * The archive entry of the song: its first line is the utterance id
   * followed by `  [`, then one line per frame, the last closing the bracket.
   */
  lemma PreparedEntry(audioId: string, audio: string, datadir: string, rows: seq<seq<string>>)
    requires ' ' !in audioId && ',' !in audioId && '\n' !in audioId
    requires ValuesAvoid(rows, '\n') && |rows| > 0
    ensures var key := UttId(MainSong(audioId, audio, datadir));
      Split(WriteFeat2File([KeyItem(key), MatrixItem(rows)]).text, '\n') == EntryLines(key, rows) + [[]]
  {
    var s := MainSong(audioId, audio, datadir);
    MainIdsMarked(audioId, audio, datadir, Utterance);
    UpperAvoids(s.gender, '\n');
    EntryLayout(UttId(s), rows);
  }

  /**
   * In `wavscp` mode the song's one record is its whole `wav.scp` line, so the
   * key the job computes and logs for it is that line, sox command and all,
   * and it carries the `-F` marker. Nothing is written under it: extraction
   * runs the whole line as a shell command and fails before the writer is
   * reached.
   */
  lemma WavScpModeKey(audioId: string, audio: string, datadir: string)
    requires ',' !in audioId && ',' !in audio
    ensures var line := WavScpLine(MainSong(audioId, audio, datadir));
      RecordKey(line) == line && Marked(line)
  {
    var s := MainSong(audioId, audio, datadir);
    WavScpLineAvoids(s, ',');
    assert RecId(s) <= WavScpLine(s);
    PrefixMarked(RecId(s), WavScpLine(s));
  }

  /** The `wav.scp` line avoids a character that the audio id, the audio path and the fixed text avoid. */
  lemma WavScpLineAvoids(s: Song, c: char)
    requires c !in s.audioId && c !in s.audio && s.gender == MainGender
    requires c !in "_rec-F sox " + WavScpOptions
    ensures c !in WavScpLine(s)
  {
    assert Upper(s.gender) == "F";
    assert c !in RecId(s);
    assert c !in WavSource(s);
    assert WavScpLine(s) == RecId(s) + " " + WavSource(s);
  }

  /** A text that starts with an id ending in `-F` is marked. */
  lemma PrefixMarked(id: string, text: string)
    requires id <= text && EndsWith(id, "-F")
    ensures Marked(text)
  {
    assert text[|id| - 2..|id|] == id[|id| - 2..];
    assert OccursAt(text, "-F", |id| - 2);
    ContainsOccurrence(text, "-F", |id| - 2);
  }
}

=== FILE: jitter_features.dfy ===
/**
 * The feature matrix of one record and the text archive it is written to:
 * one column per enabled voice-quality measure, in a fixed order, repeated
 * for every frame; then the record's key on a line ending in `  [`, and one
 * line per frame, the last one closing the bracket.
 */
module JitterFeatures {
  import opened Results
  import opened Strings
  import opened JitterOptions
  import opened JitterRecords

  /** The four Praat measures, in the order the feature vector holds them. */
  datatype Measure = Jitta | Ddp | Shimmer | Hnr

  const MeasureOrder := [Jitta, Ddp, Shimmer, Hnr]

  function Rank(m: Measure): nat {
    match m
    case Jitta => 0
    case Ddp => 1
    case Shimmer => 2
    case Hnr => 3
  }

  function Enabled(flags: Flags, m: Measure): bool {
    match m
    case Jitta => flags.jitta
    case Ddp => flags.ddp
    case Shimmer => flags.shimmer
    case Hnr => flags.hnr
  }

  predicate NoneEnabled(flags: Flags) {
    !flags.jitta && !flags.ddp && !flags.shimmer && !flags.hnr
  }

  /** The values Praat returns for one recording; computing them is outside this model. */
  datatype Measurements<T> = Measurements(jitta: T, ddp: T, shimmer: T, hnr: T) {
    function Get(m: Measure): T {
      match m
      case Jitta => jitta
      case Ddp => ddp
      case Shimmer => shimmer
      case Hnr => hnr
    }
  }

  /** The measures among `ms` that `flags` enables, in their order in `ms`. */
  function Select(flags: Flags, ms: seq<Measure>): (selected: seq<Measure>)
    ensures forall m :: m in selected <==> m in ms && Enabled(flags, m)
    ensures |selected| <= |ms|
  {
    if |ms| == 0 then []
    else (if Enabled(flags, ms[0]) then [ms[0]] else []) + Select(flags, ms[1..])
  }

  /** The columns of the feature vector: the enabled measures in the fixed order. */
  function Columns(flags: Flags): seq<Measure> {
    Select(flags, MeasureOrder)
  }

  /** The measures of `ms` in strictly increasing rank. */
  predicate Increasing(ms: seq<Measure>) {
    forall i, j :: 0 <= i < j < |ms| ==> Rank(ms[i]) < Rank(ms[j])
  }

  /** Selecting keeps the order of what it selects. */
  lemma {:induction false} SelectIncreasing(flags: Flags, ms: seq<Measure>)
    requires Increasing(ms)
    ensures Increasing(Select(flags, ms))
    decreases |ms|
  {
    if |ms| > 0 {
      var rest := Select(flags, ms[1..]);
      SelectIncreasing(flags, ms[1..]);
      forall k | 0 <= k < |rest|
        ensures Rank(ms[0]) < Rank(rest[k])
      {
        assert rest[k] in ms[1..];
        var j :| 0 <= j < |ms[1..]| && ms[1..][j] == rest[k];
        assert ms[j + 1] == rest[k];
      }
    }
  }

  /** Every measure has its place in the fixed order. */
  lemma MeasureOrderComplete(m: Measure)
    ensures m in MeasureOrder
  {
    assert MeasureOrder[Rank(m)] == m;
  }

  /** The columns are exactly the enabled measures, each once, in increasing rank. */
  lemma ColumnsOrdered(flags: Flags)
    ensures forall m :: m in Columns(flags) <==> Enabled(flags, m)
    ensures Increasing(Columns(flags))
    ensures |Columns(flags)| == 0 <==> NoneEnabled(flags)
  {
    var cs := Columns(flags);
    forall m
      ensures m in cs <==> Enabled(flags, m)
    {
      MeasureOrderComplete(m);
    }
    SelectIncreasing(flags, MeasureOrder);
    if |cs| > 0 {
      assert cs[0] in cs;
    }
    assert Enabled(flags, Jitta) == flags.jitta && Enabled(flags, Ddp) == flags.ddp;
    assert Enabled(flags, Shimmer) == flags.shimmer && Enabled(flags, Hnr) == flags.hnr;
  }

  /**
   * `feat_vector`: the measurements appended one flag at a time, jitta, ddp,
   * shimmer, hnr.
   */
  function FeatureVector<T>(flags: Flags, values: Measurements<T>): (v: seq<T>)
    ensures |v| == |Columns(flags)|
    ensures forall i :: 0 <= i < |v| ==> v[i] == values.Get(Columns(flags)[i])
  {
    var v0: seq<T> := [];
    var v1 := if flags.jitta then v0 + [values.jitta] else v0;
    var v2 := if flags.ddp then v1 + [values.ddp] else v1;
    var v3 := if flags.shimmer then v2 + [values.shimmer] else v2;
    var v4 := if flags.hnr then v3 + [values.hnr] else v3;
    ColumnsOrdered(flags);
    ColumnsAre(flags);
    v4
  }

  lemma SelectCons(flags: Flags, m: Measure, ms: seq<Measure>)
    ensures Select(flags, [m] + ms) == (if Enabled(flags, m) then [m] else []) + Select(flags, ms)
  {
    assert ([m] + ms)[0] == m && ([m] + ms)[1..] == ms;
  }

  /** The columns written out case by case. */
  lemma ColumnsAre(flags: Flags)
    ensures Columns(flags)
      == (if flags.jitta then [Jitta] else []) + ((if flags.ddp then [Ddp] else [])
       + ((if flags.shimmer then [Shimmer] else []) + (if flags.hnr then [Hnr] else [])))
  {
    var l3: seq<Measure> := [Hnr];
    var l2 := [Shimmer] + l3;
    var l1 := [Ddp] + l2;
    var l0 := [Jitta] + l1;
    assert MeasureOrder == l0;
    SelectCons(flags, Hnr, []);
    assert [Hnr] + [] == l3;
    SelectCons(flags, Shimmer, l3);
    SelectCons(flags, Ddp, l2);
    SelectCons(flags, Jitta, l1);
  }

  /** `np.tile(row, (n, 1))`: `n` copies of the row. */
  function Tile<T>(row: seq<T>, n: nat): (rows: seq<seq<T>>)
    ensures |rows| == n
    ensures forall i :: 0 <= i < n ==> rows[i] == row
  {
    if n == 0 then [] else Tile(row, n - 1) + [row]
  }

  /** `np.stack` of an empty list fails. */
  datatype FeatureError = NothingToStack

  /**
   * The feature matrix: `frames` identical rows holding one column per enabled
   * measure; stacking fails when no measure is enabled.
   */
  function Feature<T>(flags: Flags, values: Measurements<T>, frames: nat): (r: Result<seq<seq<T>>, FeatureError>)
    ensures r.Err? <==> NoneEnabled(flags)
    ensures r.Ok? ==> |r.value| == frames
    ensures r.Ok? ==> forall i :: 0 <= i < frames ==> |r.value[i]| == |Columns(flags)| > 0
    ensures r.Ok? ==> forall i, j :: 0 <= i < frames && 0 <= j < |Columns(flags)| ==> r.value[i][j] == values.Get(Columns(flags)[j])
  {
    ColumnsOrdered(flags);
    var v := FeatureVector(flags, values);
    if |v| == 0 then Err(NothingToStack) else Ok(Tile(v, frames))
  }

  /** One element of the list handed to the archive writer: a key, or a matrix of formatted values. */
  datatype FeatItem = KeyItem(text: string) | MatrixItem(rows: seq<seq<string>>)

  /** The writer fails on a key without a gender marker: numpy cannot format its characters. */
  datatype ArchiveError = UnmarkedKey(text: string)

  /** `'-F' in feat or '-M' in feat`: the key of a female or male speaker. */
  function Marked(text: string): (marked: bool)
    ensures marked <==> DashBefore(text, 'F') || DashBefore(text, 'M')
  {
    ScanMarker(text, 'F');
    ScanMarker(text, 'M');
    Contains(text, "-F") || Contains(text, "-M")
  }

  /** A `-` directly followed by `m`, found by scanning from the left. */
  predicate DashBefore(text: string, m: char)
    decreases |text|
  {
    |text| >= 2 && ((text[0] == '-' && text[1] == m) || DashBefore(text[1..], m))
  }

  lemma {:induction false} ScanMarker(text: string, m: char)
    ensures Contains(text, ['-', m]) <==> DashBefore(text, m)
    decreases |text|
  {
    if |text| > 0 {
      ScanMarker(text[1..], m);
      if |text| >= 2 {
        assert (['-', m] <= text) <==> text[0] == '-' && text[1] == m;
      }
    }
  }

  /** A key is marked exactly when some position holds a `-` followed by `F` or `M`. */
  lemma MarkedAt(text: string)
    ensures Marked(text) <==> exists i :: 0 <= i < |text| - 1 && text[i] == '-' && (text[i + 1] == 'F' || text[i + 1] == 'M')
  {
    MarkerAt(text, 'F');
    MarkerAt(text, 'M');
  }

  /** A two-character marker occurs where its first character is followed by its second. */
  lemma MarkerAt(text: string, m: char)
    ensures Contains(text, ['-', m]) <==> exists i :: 0 <= i < |text| - 1 && text[i] == '-' && text[i + 1] == m
  {
    ContainsIffOccurs(text, ['-', m]);
    if Contains(text, ['-', m]) {
      var i: nat :| OccursAt(text, ['-', m], i);
      PairAt(text, i, m);
    }
    if exists i :: 0 <= i < |text| - 1 && text[i] == '-' && text[i + 1] == m {
      var i :| 0 <= i < |text| - 1 && text[i] == '-' && text[i + 1] == m;
      PairAt(text, i, m);
    }
  }

  lemma PairAt(text: string, i: nat, m: char)
    requires i + 2 <= |text|
    ensures OccursAt(text, ['-', m], i) <==> text[i] == '-' && text[i + 1] == m
  {
    assert text[i..i + 2][0] == text[i] && text[i..i + 2][1] == text[i + 1];
  }

  /** `.replace('[', '').replace(']', '')`. */
  function RemoveBrackets(s: string): (r: string)
    ensures '[' !in r && ']' !in r
    ensures forall c :: c in r ==> c in s
    ensures '[' !in s && ']' !in s ==> r == s
  {
    if |s| == 0 then []
    else (if s[0] == '[' || s[0] == ']' then [] else [s[0]]) + RemoveBrackets(s[1..])
  }

  /** Removing brackets from a concatenation removes them from each part. */
  lemma {:induction false} RemoveBracketsAppend(a: string, b: string)
    ensures RemoveBrackets(a + b) == RemoveBrackets(a) + RemoveBrackets(b)
    decreases |a|
  {
    if |a| == 0 {
      assert a + b == b;
    } else {
      var head := if a[0] == '[' || a[0] == ']' then [] else [a[0]];
      assert (a + b)[0] == a[0] && (a + b)[1..] == a[1..] + b;
      assert RemoveBrackets(a + b) == head + RemoveBrackets(a[1..] + b);
      RemoveBracketsAppend(a[1..], b);
      assert RemoveBrackets(a) == head + RemoveBrackets(a[1..]);
      ConcatAssociative(head, RemoveBrackets(a[1..]), RemoveBrackets(b));
    }
  }

  lemma ConcatAssociative(x: string, y: string, z: string)
    ensures x + (y + z) == (x + y) + z
  {
  }

  /** Space-separated values, as `np.array2string` prints a short row. */
  function Words(row: seq<string>): string {
    if |row| == 0 then [] else Join(row, ' ')
  }

  lemma WordsAvoid(row: seq<string>, c: char)
    requires c != ' ' && forall i :: 0 <= i < |row| ==> c !in row[i]
    ensures c !in Words(row)
    decreases |row|
  {
    if |row| > 1 {
      WordsAvoid(row[1..], c);
    }
  }

  /** A row as printed by `np.array2string` with its brackets removed. */
  function RenderRow(row: seq<string>): (r: string)
    ensures '[' !in r && ']' !in r
    ensures forall c :: c in r ==> c in Words(row)
  {
    RemoveBrackets("[" + Words(row) + "]")
  }

  /** A row whose values have no brackets is rendered as its values, space-separated. */
  lemma RenderRowPlain(row: seq<string>)
    requires forall i :: 0 <= i < |row| ==> '[' !in row[i] && ']' !in row[i]
    ensures RenderRow(row) == Words(row)
  {
    var words := Words(row);
    WordsAvoid(row, '[');
    WordsAvoid(row, ']');
    RemoveBracketsAppend("[", words);
    RemoveBracketsAppend("[" + words, "]");
    assert RemoveBrackets("[") == [] && RemoveBrackets("]") == [];
  }

  /** The line of the row at `pos`, without its newline: only the last row closes the bracket. */
  function RowText(rows: seq<seq<string>>, pos: nat): (text: string)
    requires pos < |rows|
    ensures "  " <= text && '[' !in text
    ensures ']' in text <==> pos + 1 == |rows|
    ensures pos + 1 < |rows| ==> text[|text| - 1] == ' '
  {
    "  " + RenderRow(rows[pos]) + (if pos + 1 == |rows| then " ]" else " ")
  }

  /** The rows from `pos` on, as the loop over `enumerate(feat)` writes them. */
  function WriteRowsFrom(rows: seq<seq<string>>, pos: nat): (text: string)
    requires pos <= |rows|
    ensures text == [] <==> pos == |rows|
    ensures pos < |rows| ==> "  " <= text && text[|text| - 1] == '\n'
    ensures '[' !in text
    ensures ']' in text <==> pos < |rows|
    decreases |rows| - pos
  {
    if pos == |rows| then "" else RowText(rows, pos) + "\n" + WriteRowsFrom(rows, pos + 1)
  }

  /** What the writer has put in the file, and the error it stopped at, if any. */
  datatype Written = Written(text: string, failure: Option<ArchiveError>)

  /** Writing `second` after `first`, unless `first` stopped at an error. */
  function Then(first: Written, second: Written): Written {
    if first.failure.Some? then first else Written(first.text + second.text, second.failure)
  }

  lemma ThenAssociative(a: Written, b: Written, c: Written)
    ensures Then(Then(a, b), c) == Then(a, Then(b, c))
  {
    if a.failure.None? && b.failure.None? {
      assert a.text + b.text + c.text == a.text + (b.text + c.text);
    }
  }

  /** A key the writer accepts: one it marks as a key, or the empty string, whose characters it iterates over without writing. */
  predicate Writable(key: string) {
    Marked(key) || key == ""
  }

  /** One element: a marked key opens a matrix, a matrix writes its rows. */
  function WriteItem(item: FeatItem): (w: Written)
    ensures item.KeyItem? && Marked(item.text) ==> w == Written(item.text + "  [\n", None)
    ensures item.KeyItem? ==> (w.failure.None? <==> Writable(item.text))
    ensures item.KeyItem? && !Writable(item.text) ==> w.failure == Some(UnmarkedKey(item.text))
    ensures item.MatrixItem? ==> w.failure.None?
  {
    match item
    case KeyItem(text) =>
      if Marked(text) then Written(text + "  [\n", None)
      else if text == "" then Written("", None)
      else Written("", Some(UnmarkedKey(text)))
    case MatrixItem(rows) => Written(WriteRowsFrom(rows, 0), None)
  }

  /** `write_feat2file`: the elements in order, stopping at the first failure. */
  function WriteFeat2File(items: seq<FeatItem>): (w: Written)
    ensures w.failure.None? <==> forall i :: 0 <= i < |items| ==> WriteItem(items[i]).failure.None?
  {
    if |items| == 0 then Written("", None)
    else
      var rest := WriteFeat2File(items[1..]);
      assert forall i :: 1 <= i < |items| ==> items[i] == items[1..][i - 1];
      Then(WriteItem(items[0]), rest)
  }

  /** Writing two lists of elements one after the other is writing them as one list. */
  lemma {:induction false} WriteFeat2FileAppend(a: seq<FeatItem>, b: seq<FeatItem>)
    ensures WriteFeat2File(a + b) == Then(WriteFeat2File(a), WriteFeat2File(b))
    decreases |a|
  {
    if |a| == 0 {
      assert a + b == b;
      assert "" + WriteFeat2File(b).text == WriteFeat2File(b).text;
    } else {
      assert (a + b)[0] == a[0] && (a + b)[1..] == a[1..] + b;
      WriteFeat2FileAppend(a[1..], b);
      ThenAssociative(WriteItem(a[0]), WriteFeat2File(a[1..]), WriteFeat2File(b));
    }
  }

  /** A marked key followed by its matrix: the key line, then the rows. */
  lemma WriteEntry(key: string, rows: seq<seq<string>>)
    requires Marked(key)
    ensures WriteFeat2File([KeyItem(key), MatrixItem(rows)]) == Written(key + "  [\n" + WriteRowsFrom(rows, 0), None)
  {
    assert [KeyItem(key), MatrixItem(rows)][1..] == [MatrixItem(rows)];
    assert [MatrixItem(rows)][1..] == [];
    assert WriteFeat2File([MatrixItem(rows)]) == Written(WriteRowsFrom(rows, 0) + "", None);
    assert WriteRowsFrom(rows, 0) + "" == WriteRowsFrom(rows, 0);
  }

  /** The lines of one archive entry: the key line, then one line per row. */
  function EntryLines(key: string, rows: seq<seq<string>>): seq<string> {
    [key + "  ["] + seq(|rows|, i requires 0 <= i < |rows| => RowText(rows, i))
  }

  /** No formatted value contains the character. */
  predicate ValuesAvoid(rows: seq<seq<string>>, c: char) {
    forall i, j :: 0 <= i < |rows| && 0 <= j < |rows[i]| ==> c !in rows[i][j]
  }

  lemma RowTextNoNewline(rows: seq<seq<string>>, pos: nat)
    requires pos < |rows| && ValuesAvoid(rows, '\n')
    ensures '\n' !in RowText(rows, pos)
  {
    WordsAvoid(rows[pos], '\n');
  }

  /** The rows from `pos` on are their lines, each followed by a newline. */
  lemma {:induction false} RowsAsLines(rows: seq<seq<string>>, pos: nat)
    requires pos < |rows|
    ensures WriteRowsFrom(rows, pos) == Join(EntryLines([], rows)[pos + 1..], '\n') + "\n"
    decreases |rows| - pos
  {
    var lines := EntryLines([], rows)[pos + 1..];
    assert lines[0] == RowText(rows, pos);
    if pos + 1 < |rows| {
      RowsAsLines(rows, pos + 1);
      assert lines[1..] == EntryLines([], rows)[pos + 2..];
      var rest := Join(lines[1..], '\n');
      assert Join(lines, '\n') == lines[0] + ['\n'] + rest;
      ConcatAssociative(lines[0] + "\n", rest, "\n");
    } else {
      assert |lines| == 1;
    }
  }

  /**
   * A marked key and its matrix are written as the key line, then one line
   * per row, each row line starting with two spaces, every row line but the
   * last ending in a space and the last one in ` ]`, with a newline after
   * every line, provided neither the key nor any value contains a newline.
   */
  lemma EntryLayout(key: string, rows: seq<seq<string>>)
    requires Marked(key) && '\n' !in key && ValuesAvoid(rows, '\n') && |rows| > 0
    ensures WriteFeat2File([KeyItem(key), MatrixItem(rows)]) == Written(Join(EntryLines(key, rows), '\n') + "\n", None)
    ensures Split(WriteFeat2File([KeyItem(key), MatrixItem(rows)]).text, '\n') == EntryLines(key, rows) + [[]]
  {
    EntryText(key, rows);
    EntryLinesSeparable(key, rows);
    SplitFinalNewline(EntryLines(key, rows));
  }

  /** No line of an entry holds a newline when neither the key nor any value does. */
  lemma EntryLinesSeparable(key: string, rows: seq<seq<string>>)
    requires '\n' !in key && ValuesAvoid(rows, '\n')
    ensures Separable(EntryLines(key, rows), '\n')
  {
    forall i | 0 <= i < |EntryLines(key, rows)|
      ensures '\n' !in EntryLines(key, rows)[i]
    {
      if i == 0 {
        KeyLineAvoids(key, rows);
      } else {
        RowTextNoNewline(rows, i - 1);
        EntryRowAvoids(key, rows, i - 1);
      }
    }
  }

  lemma EntryRowAvoids(key: string, rows: seq<seq<string>>, pos: nat)
    requires pos < |rows| && '\n' !in RowText(rows, pos)
    ensures '\n' !in EntryLines(key, rows)[pos + 1]
  {
    assert EntryLines(key, rows)[pos + 1] == RowText(rows, pos);
  }

  lemma KeyLineAvoids(key: string, rows: seq<seq<string>>)
    requires '\n' !in key
    ensures '\n' !in EntryLines(key, rows)[0]
  {
    assert EntryLines(key, rows)[0] == key + "  [";
  }

  /** The text of an entry is its lines joined, with a final newline. */
  lemma EntryText(key: string, rows: seq<seq<string>>)
    requires Marked(key) && |rows| > 0
    ensures WriteFeat2File([KeyItem(key), MatrixItem(rows)]) == Written(Join(EntryLines(key, rows), '\n') + "\n", None)
  {
    var lines := EntryLines(key, rows);
    RowsAsLines(rows, 0);
    assert lines[1..] == EntryLines([], rows)[1..];
    var rest := Join(lines[1..], '\n');
    WriteEntry(key, rows);
    assert WriteRowsFrom(rows, 0) == rest + "\n";
    assert Join(lines, '\n') == (key + "  [") + "\n" + rest;
    assert key + "  [\n" == (key + "  [") + "\n";
    ConcatAssociative(key + "  [\n", rest, "\n");
  }

  /** The elements the job hands to the writer: each record's key, then its feature matrix. */
  function Items(records: seq<string>, features: seq<seq<seq<string>>>): (items: seq<FeatItem>)
    requires |records| == |features|
    ensures |items| == 2 * |records|
    ensures forall j :: 0 <= j < |items| ==>
      items[j] == (if j % 2 == 0 then KeyItem(RecordKey(records[j / 2])) else MatrixItem(features[j / 2]))
    decreases |records|
  {
    if |records| == 0 then []
    else [KeyItem(RecordKey(records[0])), MatrixItem(features[0])] + Items(records[1..], features[1..])
  }

  /**
   * The archive text of a job: for each record, its key then its feature
   * matrix, one writer call per record, the job stopping at the first error.
   */
  function JobArchive(records: seq<string>, features: seq<seq<seq<string>>>): (w: Written)
    requires |records| == |features|
    ensures w == WriteFeat2File(Items(records, features))
    decreases |records|
  {
    if |records| == 0 then Written("", None)
    else
      var entry := [KeyItem(RecordKey(records[0])), MatrixItem(features[0])];
      WriteFeat2FileAppend(entry, Items(records[1..], features[1..]));
      Then(WriteFeat2File(entry), JobArchive(records[1..], features[1..]))
  }

  /** The entry of one record fails exactly when its key is not writable. */
  lemma EntryFailure(key: string, rows: seq<seq<string>>)
    ensures WriteFeat2File([KeyItem(key), MatrixItem(rows)]).failure.None? <==> Writable(key)
    ensures !Writable(key) ==> WriteFeat2File([KeyItem(key), MatrixItem(rows)]).failure == Some(UnmarkedKey(key))
  {
    assert [KeyItem(key), MatrixItem(rows)][1..] == [MatrixItem(rows)];
    assert [MatrixItem(rows)][1..] == [];
  }

  /** The keys of the records, `record.split(',')[0]` each. */
  function Keys(records: seq<string>): (keys: seq<string>)
    ensures |keys| == |records|
    ensures forall i :: 0 <= i < |records| ==> keys[i] == RecordKey(records[i])
    ensures forall i :: 0 <= i < |records| ==> ',' !in keys[i] && keys[i] <= records[i]
  {
    seq(|records|, i requires 0 <= i < |records| => RecordKey(records[i]))
  }

  /** The position of the first key the writer rejects, if any. */
  function FirstUnwritable(keys: seq<string>): (k: Option<nat>)
    ensures k.None? <==> forall i :: 0 <= i < |keys| ==> Writable(keys[i])
    ensures k.Some? ==>
      && k.value < |keys|
      && !Writable(keys[k.value])
      && forall j :: 0 <= j < k.value ==> Writable(keys[j])
  {
    if |keys| == 0 then None
    else if !Writable(keys[0]) then Some(0)
    else
      match FirstUnwritable(keys[1..])
      case None =>
        assert forall i :: 1 <= i < |keys| ==> keys[i] == keys[1..][i - 1];
        None
      case Some(k) =>
        assert forall j :: 1 <= j < k + 1 ==> keys[j] == keys[1..][j - 1];
        Some(k + 1)
  }

  lemma KeysTail(records: seq<string>)
    requires |records| > 0
    ensures Keys(records)[0] == RecordKey(records[0])
    ensures Keys(records)[1..] == Keys(records[1..])
  {
    assert forall i :: 0 <= i < |records| - 1 ==> records[1..][i] == records[i + 1];
  }

  /** The job fails at its first record when that record's key is not writable, and otherwise as the rest of the job does. */
  lemma JobArchiveStep(records: seq<string>, features: seq<seq<seq<string>>>)
    requires |records| == |features| && |records| > 0
    ensures var key := RecordKey(records[0]);
      JobArchive(records, features).failure
        == if Writable(key) then JobArchive(records[1..], features[1..]).failure else Some(UnmarkedKey(key))
  {
    EntryFailure(RecordKey(records[0]), features[0]);
  }

  /**
   * A job writes all its records when every record key is writable, and
   * otherwise stops at the first record whose key is not, reporting that key.
   */
  lemma {:induction false} JobArchiveFailure(records: seq<string>, features: seq<seq<seq<string>>>)
    requires |records| == |features|
    ensures var first := FirstUnwritable(Keys(records));
      JobArchive(records, features).failure
        == if first.None? then None else Some(UnmarkedKey(RecordKey(records[first.value])))
    decreases |records|
  {
    if |records| > 0 {
      JobArchiveStep(records, features);
      JobArchiveFailure(records[1..], features[1..]);
      KeysTail(records);
      var rest := FirstUnwritable(Keys(records[1..]));
      if rest.Some? {
        assert records[1..][rest.value] == records[rest.value + 1];
      }
    }
  }
}

=== FILE: jitter_options.dfy ===
/**
 * How the jitter-feature script settles its options: the extraction mode,
 * sample rate and feature flags from the INI configuration or the command
 * line, the default log and feature paths, the job number taken from the log
 * file name, and the temporary wav and archive names derived from them.
 */
module JitterOptions {
  import opened Results
  import opened Strings
  import opened PosixPath

  /**
   * An INI configuration as Python's configparser holds it after reading: the
   * options of the DEFAULT section and of each named section, with option
   * names already in the lower case configparser stores them in.
   */
  datatype Config = Config(defaults: map<string, string>, sections: map<string, map<string, string>>)

  /** What configparser holds when no file was read. */
  const EmptyConfig := Config(map[], map[])

  /** What `config[section]` shows: the options of DEFAULT, overridden by the section's own. */
  function SectionView(config: Config, section: string): map<string, string>
    requires section in config.sections
  {
    config.defaults + config.sections[section]
  }

  /** `key in config[section]`: a section also sees the options of DEFAULT. */
  predicate HasOption(config: Config, section: string, key: string)
    requires section in config.sections
    ensures HasOption(config, section, key) <==> key in SectionView(config, section)
  {
    key in config.sections[section] || key in config.defaults
  }

  /** `config[section].get(key)`: the section's own value wins over DEFAULT's. */
  function GetOption(config: Config, section: string, key: string): (value: string)
    requires section in config.sections && HasOption(config, section, key)
    ensures value == SectionView(config, section)[key]
  {
    if key in config.sections[section] then config.sections[section][key] else config.defaults[key]
  }

  /** The command line after argparse: positional and optional arguments, "" where omitted. */
  datatype Args = Args(
    datadir: string,
    logfile: string,
    featdir: string,
    jitterConf: string,
    mode: string,
    segfile: string,
    sr: int)

  /** The command line with only the data directory and the segment file given. */
  function DefaultArgs(datadir: string, segfile: string): Args {
    Args(datadir, "", "", "", "segment", segfile, 16000)
  }

  /** Which of the four voice-quality measures go into the feature vector. */
  datatype Flags = Flags(jitta: bool, ddp: bool, shimmer: bool, hnr: bool)

  /** Everything the extraction job is run with. */
  datatype Options = Options(
    mode: string,
    sampleRate: int,
    datadir: string,
    logfile: string,
    featdir: string,
    segfile: string,
    nj: string,
    flags: Flags)

  /** The exceptions and the usage error the option handling can end in. */
  datatype OptionError =
    | MissingSection(section: string)
    | SegfileRequired
    | NotAnInteger(key: string, value: string)
    | NoJobNumber(logfile: string)
    | NotABoolean(key: string, value: string)

  /** The configuration in effect: the file is read only when `--jitter_conf` is given. */
  function LoadedConfig(args: Args, fileConfig: Config): (config: Config)
    ensures args.jitterConf == "" ==> config == EmptyConfig
    ensures args.jitterConf != "" ==> config == fileConfig
  {
    if |args.jitterConf| > 0 then fileConfig else EmptyConfig
  }

  const TrueWords := ["1", "yes", "true", "on"]
  const FalseWords := ["0", "no", "false", "off"]

  /** configparser's `getboolean`: one of its fixed words, in any letter case. */
  function ParseBoolean(value: string): (b: Option<bool>)
    ensures b == Some(true) <==> Lower(value) in TrueWords
    ensures b == Some(false) <==> Lower(value) in FalseWords
  {
    var word := Lower(value);
    if word in TrueWords then Some(true)
    else if word in FalseWords then Some(false)
    else None
  }

  predicate IsDigit(c: char) {
    '0' <= c <= '9'
  }

  predicate AllDigits(s: string) {
    forall i :: 0 <= i < |s| ==> IsDigit(s[i])
  }

  /** The value of a string of decimal digits. */
  function DigitsValue(digits: string): nat
    requires AllDigits(digits)
  {
    if |digits| == 0 then 0
    else DigitsValue(digits[..|digits| - 1]) * 10 + (digits[|digits| - 1] as int - '0' as int)
  }

  /** The decimal text of a natural number, without leading zeros. */
  function NatText(n: nat): (text: string)
    ensures |text| > 0 && AllDigits(text)
  {
    var d := ['0' + (n % 10) as char];
    if n < 10 then d else NatText(n / 10) + d
  }

  /** Reading back the decimal text of a number gives the number. */
  lemma {:induction false} DigitsRoundTrip(n: nat)
    ensures DigitsValue(NatText(n)) == n
  {
    var text := NatText(n);
    if n >= 10 {
      DigitsRoundTrip(n / 10);
      assert text[..|text| - 1] == NatText(n / 10);
    }
  }

  /** An optional sign, then one or more ASCII digits. */
  function ParseSigned(t: string): (n: Option<int>)
    ensures n.Some? ==> |t| > 0
  {
    if |t| > 0 && (t[0] == '-' || t[0] == '+') then
      var digits := t[1..];
      if |digits| > 0 && AllDigits(digits) then
        Some(if t[0] == '-' then -(DigitsValue(digits) as int) else DigitsValue(digits))
      else None
    else if |t| > 0 && AllDigits(t) then Some(DigitsValue(t))
    else None
  }

  /**
   * Python's `int(value)` as `getint` applies it: surrounding whitespace, an
   * optional sign, then one or more ASCII digits.
   */
  function ParseInt(value: string): (n: Option<int>)
    ensures n.Some? ==> |Strip(value)| > 0
    ensures var t := Strip(value);
      n.Some? <==> (|t| > 0 && AllDigits(t)) || (|t| > 1 && (t[0] == '-' || t[0] == '+') && AllDigits(t[1..]))
    ensures n.Some? && n.value < 0 ==> Strip(value)[0] == '-'
  {
    ParseSigned(Strip(value))
  }

  /** A run of digits after a minus sign is read as the negated value of the digits. */
  lemma NegativeDigits(digits: string)
    requires |digits| > 0 && AllDigits(digits)
    ensures ParseSigned("-" + digits) == Some(-(DigitsValue(digits) as int))
  {
    var text := "-" + digits;
    assert text[0] == '-' && text[1..] == digits;
  }

  /** Digits after a minus sign have no surrounding whitespace. */
  lemma NegativeStripped(digits: string)
    requires |digits| > 0 && AllDigits(digits)
    ensures Strip("-" + digits) == "-" + digits
  {
    var text := "-" + digits;
    assert text[|text| - 1] == digits[|digits| - 1];
    assert IsDigit(digits[|digits| - 1]);
    StripUnchanged(text);
  }

  /** A run of digits reads as its value. */
  lemma ParseDigits(digits: string)
    requires |digits| > 0 && AllDigits(digits)
    ensures ParseInt(digits) == Some(DigitsValue(digits) as int)
  {
    assert IsDigit(digits[0]) && IsDigit(digits[|digits| - 1]);
    StripUnchanged(digits);
  }

  /** A run of digits after a minus sign reads as the negated value. */
  lemma ParseNegative(digits: string)
    requires |digits| > 0 && AllDigits(digits)
    ensures ParseInt("-" + digits) == Some(-(DigitsValue(digits) as int))
  {
    NegativeStripped(digits);
    NegativeDigits(digits);
  }

  /** Every integer's decimal text, with its sign, is read back as that integer. */
  lemma ParseIntRoundTrip(n: int)
    ensures ParseInt(if n < 0 then "-" + NatText(-n) else NatText(n)) == Some(n)
  {
    var m: nat := if n < 0 then -n else n;
    DigitsRoundTrip(m);
    if n < 0 {
      ParseNegative(NatText(m));
    } else {
      ParseDigits(NatText(m));
    }
  }

  /** The mode: the configuration's `[data] mode` when present, otherwise `--mode`. */
  function ResolveMode(config: Config, args: Args): (mode: Result<string, OptionError>)
    ensures "data" !in config.sections ==> mode == Err(MissingSection("data"))
    ensures "data" in config.sections ==> mode.Ok?
    ensures "data" in config.sections && "mode" in SectionView(config, "data") ==>
      mode == Ok(SectionView(config, "data")["mode"])
    ensures "data" in config.sections && "mode" !in SectionView(config, "data") ==> mode == Ok(args.mode)
  {
    if "data" !in config.sections then Err(MissingSection("data"))
    else if HasOption(config, "data", "mode") then Ok(GetOption(config, "data", "mode"))
    else Ok(args.mode)
  }

  /** The sample rate: `[data] sample_rate` read as an integer when present, otherwise `--sr`. */
  function ResolveSampleRate(config: Config, args: Args): (sr: Result<int, OptionError>)
    requires "data" in config.sections
    ensures !HasOption(config, "data", "sample_rate") ==> sr == Ok(args.sr)
    ensures HasOption(config, "data", "sample_rate") ==>
      var text := GetOption(config, "data", "sample_rate");
      if ParseInt(text).Some? then sr == Ok(ParseInt(text).value) else sr == Err(NotAnInteger("sample_rate", text))
  {
    if HasOption(config, "data", "sample_rate") then
      var text := GetOption(config, "data", "sample_rate");
      match ParseInt(text)
      case Some(n) => Ok(n)
      case None => Err(NotAnInteger("sample_rate", text))
    else Ok(args.sr)
  }

  /** The name of the log file when none is given. */
  const DefaultLogName := "make_jitter.01.log"

  /** `<datadir>/log/make_jitter.01.log`, the log file when none is given. */
  function DefaultLogfile(datadir: string): (logfile: string)
    ensures EndsWith(logfile, DefaultLogName)
    ensures |datadir| > 0 && datadir[|datadir| - 1] != '/' ==> logfile == datadir + "/log/" + DefaultLogName
    ensures |datadir| == 0 || datadir[|datadir| - 1] == '/' ==> logfile == datadir + "log/" + DefaultLogName
  {
    assert datadir + "/" + "log" + "/" + DefaultLogName == datadir + "/log/" + DefaultLogName;
    assert datadir + "log" + "/" + DefaultLogName == datadir + "log/" + DefaultLogName;
    PathJoin3(datadir, "log", DefaultLogName)
  }

  /** `<datadir>/jitter`, the feature directory when none is given. */
  function DefaultFeatdir(datadir: string): (featdir: string)
    ensures LastComponent(featdir) == "jitter"
    ensures datadir <= featdir
    ensures |datadir| > 0 && datadir[|datadir| - 1] != '/' ==> featdir == datadir + "/jitter"
    ensures |datadir| == 0 || datadir[|datadir| - 1] == '/' ==> featdir == datadir + "jitter"
  {
    JitterDirName(datadir);
    JitterDirShape(datadir);
    PathJoin(datadir, "jitter")
  }

  lemma JitterDirShape(datadir: string)
    ensures |datadir| > 0 && datadir[|datadir| - 1] != '/' ==> PathJoin(datadir, "jitter") == datadir + "/jitter"
    ensures |datadir| == 0 || datadir[|datadir| - 1] == '/' ==> PathJoin(datadir, "jitter") == datadir + "jitter"
  {
    var name := "jitter";
    assert name[0] == 'j';
    assert !Absolute(name);
    assert datadir + "/" + name == datadir + "/jitter";
  }

  lemma JitterDirName(datadir: string)
    ensures LastComponent(PathJoin(datadir, "jitter")) == "jitter"
  {
    var name := "jitter";
    assert '/' !in name;
    LastComponentOfJoin(datadir, name);
  }

  /** `logfile.split(".")[-2]`: the piece between the last two dots; an index error when there is no dot. */
  function JobNumber(logfile: string): (nj: Result<string, OptionError>)
    ensures nj.Err? <==> '.' !in logfile
    ensures nj.Err? ==> nj.error == NoJobNumber(logfile)
    ensures nj.Ok? ==> '.' !in nj.value
  {
    var parts := Split(logfile, '.');
    if |parts| < 2 then Err(NoJobNumber(logfile)) else Ok(parts[|parts| - 2])
  }

  /**
   * The job number is the piece between the last two dots whatever comes
   * before them.
   */
  lemma JobNumberOfName(front: string, nj: string, ext: string)
    requires '.' !in nj && '.' !in ext
    ensures JobNumber(front + "." + nj + "." + ext) == Ok(nj)
  {
    var tail := nj + ['.'] + ext;
    assert front + "." + nj + "." + ext == front + ['.'] + tail;
    SplitAppend(nj, ext, '.');
    assert Split(nj, '.') == [nj] && Split(ext, '.') == [ext];
    assert Split(tail, '.') == [nj, ext];
    SplitAppend(front, tail, '.');
    var parts := Split(front + ['.'] + tail, '.');
    assert parts == Split(front, '.') + [nj, ext];
    assert parts[|parts| - 2] == nj;
  }

  /** With a single dot, the job number is everything before it. */
  lemma JobNumberOfOneDot(front: string, ext: string)
    requires '.' !in front && '.' !in ext
    ensures JobNumber(front + "." + ext) == Ok(front)
  {
    assert front + "." + ext == front + ['.'] + ext;
    SplitTwo(front, ext, '.');
  }

  /** Any name ending in `.<nj>.<ext>` has job number `nj`. */
  lemma JobNumberOfSuffix(s: string, nj: string, ext: string)
    requires '.' !in nj && '.' !in ext
    requires EndsWith(s, "." + nj + "." + ext)
    ensures JobNumber(s) == Ok(nj)
  {
    var suffix := "." + nj + "." + ext;
    var front := s[..|s| - |suffix|];
    assert s == front + suffix;
    assert front + suffix == front + "." + nj + "." + ext;
    JobNumberOfName(front, nj, ext);
  }

  lemma DefaultLogNameSuffix()
    ensures EndsWith(DefaultLogName, "." + "01" + "." + "log")
  {
    assert DefaultLogName == "make_jitter" + ("." + "01" + "." + "log");
    EndsWithConcat("make_jitter", "." + "01" + "." + "log");
  }

  /** The default log file gives job number `01`, whatever the data directory. */
  lemma DefaultLogfileJob(datadir: string)
    ensures JobNumber(DefaultLogfile(datadir)) == Ok("01")
  {
    DefaultLogNameSuffix();
    EndsWithTransitive(DefaultLogfile(datadir), DefaultLogName, "." + "01" + "." + "log");
    JobNumberOfSuffix(DefaultLogfile(datadir), "01", "log");
  }

  /** `config['default'].getboolean(key)` when the option is present, otherwise true. */
  function ResolveFlag(config: Config, key: string): (b: Result<bool, OptionError>)
    requires "default" in config.sections
    ensures !HasOption(config, "default", key) ==> b == Ok(true)
    ensures HasOption(config, "default", key) ==>
      (b.Ok? <==> ParseBoolean(GetOption(config, "default", key)).Some?)
    ensures b.Err? ==> b.error == NotABoolean(key, GetOption(config, "default", key))
    ensures HasOption(config, "default", key) && b.Ok? ==> ParseBoolean(GetOption(config, "default", key)) == Some(b.value)
  {
    if HasOption(config, "default", key) then
      var text := GetOption(config, "default", key);
      match ParseBoolean(text)
      case Some(v) => Ok(v)
      case None => Err(NotABoolean(key, text))
    else Ok(true)
  }

  /** The options of the four flags, in the order the script reads them. */
  const FlagKeys := ["add_jitta", "add_ddp", "add_shimmer", "add_hnr"]

  /** The four flags, read in the order jitta, ddp, shimmer, hnr. */
  function ResolveFlags(config: Config): (flags: Result<Flags, OptionError>)
    ensures "default" !in config.sections ==> flags == Err(MissingSection("default"))
    ensures flags.Err? && flags.error.MissingSection? ==> "default" !in config.sections
    ensures flags.Ok? ==>
      && "default" in config.sections
      && ResolveFlag(config, "add_jitta") == Ok(flags.value.jitta)
      && ResolveFlag(config, "add_ddp") == Ok(flags.value.ddp)
      && ResolveFlag(config, "add_shimmer") == Ok(flags.value.shimmer)
      && ResolveFlag(config, "add_hnr") == Ok(flags.value.hnr)
  {
    if "default" !in config.sections then Err(MissingSection("default"))
    else
      var jitta :- ResolveFlag(config, "add_jitta");
      var ddp :- ResolveFlag(config, "add_ddp");
      var shimmer :- ResolveFlag(config, "add_shimmer");
      var hnr :- ResolveFlag(config, "add_hnr");
      Ok(Flags(jitta, ddp, shimmer, hnr))
  }

  /**
   * The flags resolve when every one of them does; otherwise the error
   * reported is that of the first flag, in reading order, that does not.
   */
  lemma FlagsReportFirstError(config: Config)
    requires "default" in config.sections
    ensures ResolveFlags(config).Ok? <==> forall k :: 0 <= k < |FlagKeys| ==> ResolveFlag(config, FlagKeys[k]).Ok?
    ensures ResolveFlags(config).Err? ==>
      exists k :: 0 <= k < |FlagKeys| && ResolveFlag(config, FlagKeys[k]) == Err(ResolveFlags(config).error)
        && forall j :: 0 <= j < k ==> ResolveFlag(config, FlagKeys[j]).Ok?
  {
    var r := ResolveFlags(config);
    if r.Ok? {
      forall k | 0 <= k < |FlagKeys|
        ensures ResolveFlag(config, FlagKeys[k]).Ok?
      {
        assert k == 0 || k == 1 || k == 2 || k == 3;
      }
    } else if ResolveFlag(config, FlagKeys[0]).Err? {
      assert ResolveFlag(config, FlagKeys[0]) == Err(r.error);
    } else if ResolveFlag(config, FlagKeys[1]).Err? {
      assert ResolveFlag(config, FlagKeys[1]) == Err(r.error);
    } else if ResolveFlag(config, FlagKeys[2]).Err? {
      assert ResolveFlag(config, FlagKeys[2]) == Err(r.error);
    } else {
      assert ResolveFlag(config, FlagKeys[3]) == Err(r.error);
    }
  }

  /**
   * The options the job runs with under a configuration, or the first error
   * the script stops at. A segment-mode job always has a segment file; the
   * log and feature paths default inside the data directory; the job number
   * comes from the log file name, and is `01` for the default log file.
   */
  function ResolveConfig(args: Args, config: Config): (r: Result<Options, OptionError>)
    ensures "data" !in config.sections ==> r == Err(MissingSection("data"))
    ensures r.Err? && r.error.MissingSection? ==> "data" !in config.sections || "default" !in config.sections
    ensures r.Ok? ==> !(r.value.mode == "segment" && r.value.segfile == "")
    ensures r.Ok? ==> r.value.datadir == args.datadir && r.value.segfile == args.segfile
    ensures r.Ok? && args.logfile == "" ==> r.value.nj == "01"
    ensures r.Ok? && args.featdir == "" ==> LastComponent(r.value.featdir) == "jitter"
    ensures r.Ok? && args.featdir != "" ==> r.value.featdir == args.featdir
    ensures r.Ok? && args.featdir == "" ==> r.value.featdir == DefaultFeatdir(args.datadir)
    ensures r.Ok? && args.logfile != "" ==> r.value.logfile == args.logfile
    ensures r.Ok? && args.logfile == "" ==> r.value.logfile == DefaultLogfile(args.datadir)
    ensures r.Ok? ==> "data" in config.sections && ResolveSampleRate(config, args) == Ok(r.value.sampleRate)
    ensures r.Ok? ==> Ok(r.value.nj) == JobNumber(r.value.logfile)
    ensures r.Ok? ==> ResolveMode(config, args) == Ok(r.value.mode)
    ensures r.Ok? ==> ResolveFlags(config) == Ok(r.value.flags)
  {
    var mode :- ResolveMode(config, args);
    if mode == "segment" && args.segfile == "" then Err(SegfileRequired)
    else
      var sr :- ResolveSampleRate(config, args);
      var logfile := if args.logfile == "" then DefaultLogfile(args.datadir) else args.logfile;
      var featdir := if args.featdir == "" then DefaultFeatdir(args.datadir) else args.featdir;
      var nj :- JobNumber(logfile);
      var flags :- ResolveFlags(config);
      DefaultLogfileJob(args.datadir);
      Ok(Options(mode, sr, args.datadir, logfile, featdir, args.segfile, nj, flags))
  }

  /**
   * The script as written: `config['data']` and `config['default']` are
   * indexed whether or not a file was read, so without `--jitter_conf` every
   * run stops at the missing `[data]` section; with both sections present it
   * agrees with the corrected resolution.
   */
  function ResolveAsWritten(args: Args, fileConfig: Config): (r: Result<Options, OptionError>)
    ensures args.jitterConf == "" ==> r == Err(MissingSection("data"))
    ensures var config := LoadedConfig(args, fileConfig);
      "data" in config.sections && "default" in config.sections ==> r == Resolve(args, fileConfig)
  {
    var config := LoadedConfig(args, fileConfig);
    WithSectionsKeeps(config);
    ResolveConfig(args, config)
  }

  /** The configuration with an empty `[data]` and `[default]` section wherever it has none. */
  function WithSections(config: Config): (completed: Config)
    ensures "data" in completed.sections && "default" in completed.sections
    ensures completed.defaults == config.defaults
    ensures forall name :: name in config.sections ==> name in completed.sections && completed.sections[name] == config.sections[name]
    ensures "data" !in config.sections ==> completed.sections["data"] == map[]
    ensures "default" !in config.sections ==> completed.sections["default"] == map[]
  {
    var withData := if "data" in config.sections then config.sections else config.sections["data" := map[]];
    var withBoth := if "default" in withData then withData else withData["default" := map[]];
    Config(config.defaults, withBoth)
  }

  /** A configuration that has both sections is left as it is. */
  lemma WithSectionsKeeps(config: Config)
    ensures "data" in config.sections && "default" in config.sections ==> WithSections(config) == config
  {
    if "data" in config.sections && "default" in config.sections {
      assert WithSections(config).sections == config.sections;
    }
  }

  /**
   * The options the job runs with, as the usage text promises them: a
   * missing configuration file, or a file without a `[data]` or `[default]`
   * section, leaves the command-line values and the default flags in effect
   * instead of stopping the script.
   */
  function Resolve(args: Args, fileConfig: Config): (r: Result<Options, OptionError>)
    ensures r.Err? ==> !r.error.MissingSection?
    ensures r.Ok? ==> !(r.value.mode == "segment" && r.value.segfile == "")
    ensures r.Ok? ==> r.value.datadir == args.datadir && r.value.segfile == args.segfile
    ensures r.Ok? && args.logfile == "" ==> r.value.nj == "01"
    ensures r.Ok? ==> Ok(r.value.nj) == JobNumber(r.value.logfile)
    ensures r.Ok? && args.featdir != "" ==> r.value.featdir == args.featdir
    ensures r.Ok? && args.featdir == "" ==> r.value.featdir == DefaultFeatdir(args.datadir)
    ensures r.Ok? && args.logfile != "" ==> r.value.logfile == args.logfile
    ensures r.Ok? && args.logfile == "" ==> r.value.logfile == DefaultLogfile(args.datadir)
    ensures r.Ok? ==> ResolveSampleRate(WithSections(LoadedConfig(args, fileConfig)), args) == Ok(r.value.sampleRate)
    ensures r.Ok? ==> ResolveMode(WithSections(LoadedConfig(args, fileConfig)), args) == Ok(r.value.mode)
    ensures r.Ok? ==> ResolveFlags(WithSections(LoadedConfig(args, fileConfig))) == Ok(r.value.flags)
    ensures args.jitterConf == "" && r.Ok? ==>
      r.value.mode == args.mode && r.value.sampleRate == args.sr && r.value.flags == Flags(true, true, true, true)
    ensures args.jitterConf == "" && args.logfile == "" && !(args.mode == "segment" && args.segfile == "") ==> r.Ok?
  {
    NoConfigResolves(args, fileConfig);
    ResolveConfig(args, WithSections(LoadedConfig(args, fileConfig)))
  }

  /**
   * Without a configuration file the job takes its mode and sample rate from
   * the command line and computes every measure, and it runs whenever a
   * segment-mode job names its segment file and the log file is the default.
   */
  lemma NoConfigResolves(args: Args, fileConfig: Config)
    ensures var r := ResolveConfig(args, WithSections(LoadedConfig(args, fileConfig)));
      args.jitterConf == "" && r.Ok? ==>
      r.value.mode == args.mode && r.value.sampleRate == args.sr && r.value.flags == Flags(true, true, true, true)
    ensures args.jitterConf == "" && args.logfile == "" && !(args.mode == "segment" && args.segfile == "") ==>
      ResolveConfig(args, WithSections(LoadedConfig(args, fileConfig))).Ok?
  {
    if args.jitterConf == "" {
      var config := WithSections(LoadedConfig(args, fileConfig));
      EmptySections(config, args);
      ResolveEmptySections(args, config);
      if args.logfile == "" && !(args.mode == "segment" && args.segfile == "") {
        ResolveEmptySectionsRuns(args, config);
      }
    }
  }

  /** Under empty sections a resolved job has the command-line mode and rate and every flag on. */
  lemma ResolveEmptySections(args: Args, config: Config)
    requires "data" in config.sections
    requires ResolveMode(config, args) == Ok(args.mode)
    requires ResolveSampleRate(config, args) == Ok(args.sr)
    requires ResolveFlags(config) == Ok(Flags(true, true, true, true))
    ensures var r := ResolveConfig(args, config);
      r.Ok? ==> r.value.mode == args.mode && r.value.sampleRate == args.sr && r.value.flags == Flags(true, true, true, true)
  {
  }

  /** Under empty sections a job with the default log file and the segment file it needs is resolved. */
  lemma ResolveEmptySectionsRuns(args: Args, config: Config)
    requires "data" in config.sections
    requires ResolveMode(config, args) == Ok(args.mode)
    requires ResolveSampleRate(config, args) == Ok(args.sr)
    requires ResolveFlags(config) == Ok(Flags(true, true, true, true))
    requires args.logfile == "" && !(args.mode == "segment" && args.segfile == "")
    ensures ResolveConfig(args, config).Ok?
  {
    DefaultLogfileJob(args.datadir);
  }

  /** Empty `[data]` and `[default]` sections leave every option at its command-line value or default. */
  lemma EmptySections(config: Config, args: Args)
    requires config.defaults == map[] && "data" in config.sections && "default" in config.sections
    requires config.sections["data"] == map[] && config.sections["default"] == map[]
    ensures ResolveMode(config, args) == Ok(args.mode)
    ensures ResolveSampleRate(config, args) == Ok(args.sr)
    ensures ResolveFlags(config) == Ok(Flags(true, true, true, true))
  {
  }

  /**
   * The documented minimal command line: the script as written stops at the
   * missing `[data]` section, the corrected resolution runs in segment mode
   * at 16 kHz.
   */
  lemma MinimalCommandLine(datadir: string, segfile: string, fileConfig: Config)
    requires segfile != ""
    ensures ResolveAsWritten(DefaultArgs(datadir, segfile), fileConfig) == Err(MissingSection("data"))
    ensures Resolve(DefaultArgs(datadir, segfile), fileConfig).Ok?
    ensures Resolve(DefaultArgs(datadir, segfile), fileConfig).value.mode == "segment"
  {
  }

  /**
   * Where the mode comes from: a resolved job takes the configuration's
   * `[data] mode` when it is set there, or in DEFAULT, and `--mode` only
   * when it is not.
   */
  lemma ModeSource(args: Args, fileConfig: Config)
    ensures var config := WithSections(LoadedConfig(args, fileConfig));
      Resolve(args, fileConfig).Ok? ==>
      Resolve(args, fileConfig).value.mode
        == if HasOption(config, "data", "mode") then GetOption(config, "data", "mode") else args.mode
  {
    var config := WithSections(LoadedConfig(args, fileConfig));
    if Resolve(args, fileConfig).Ok? {
      assert ResolveMode(config, args) == Ok(Resolve(args, fileConfig).value.mode);
    }
  }

  /**
   * A flag the configuration leaves out is on; one it sets is on exactly when
   * its value is one of configparser's true words.
   */
  lemma FlagsDefaultOn(args: Args, fileConfig: Config)
    ensures var config := WithSections(LoadedConfig(args, fileConfig));
      var r := Resolve(args, fileConfig);
      r.Ok? ==>
      var flags := r.value.flags;
      && (!HasOption(config, "default", "add_jitta") ==> flags.jitta)
      && (!HasOption(config, "default", "add_ddp") ==> flags.ddp)
      && (!HasOption(config, "default", "add_shimmer") ==> flags.shimmer)
      && (!HasOption(config, "default", "add_hnr") ==> flags.hnr)
      && (HasOption(config, "default", "add_jitta") ==>
            (flags.jitta <==> Lower(GetOption(config, "default", "add_jitta")) in TrueWords))
      && (HasOption(config, "default", "add_ddp") ==>
            (flags.ddp <==> Lower(GetOption(config, "default", "add_ddp")) in TrueWords))
      && (HasOption(config, "default", "add_shimmer") ==>
            (flags.shimmer <==> Lower(GetOption(config, "default", "add_shimmer")) in TrueWords))
      && (HasOption(config, "default", "add_hnr") ==>
            (flags.hnr <==> Lower(GetOption(config, "default", "add_hnr")) in TrueWords))
  {
    var config := WithSections(LoadedConfig(args, fileConfig));
    if Resolve(args, fileConfig).Ok? {
      var flags := Resolve(args, fileConfig).value.flags;
      assert ResolveFlags(config) == Ok(flags);
      assert ResolveFlag(config, "add_jitta") == Ok(flags.jitta);
      assert ResolveFlag(config, "add_ddp") == Ok(flags.ddp);
      assert ResolveFlag(config, "add_shimmer") == Ok(flags.shimmer);
      assert ResolveFlag(config, "add_hnr") == Ok(flags.hnr);
    }
  }

  /** `<featdir>/tmp/tmp.<nj>.wav`, the scratch file sox writes each segment to. */
  function TmpWav(featdir: string, nj: string): (path: string)
    ensures featdir <= path
    ensures |featdir| > 0 && featdir[|featdir| - 1] != '/' ==> path == featdir + "/tmp/tmp." + nj + ".wav"
    ensures |featdir| == 0 || featdir[|featdir| - 1] == '/' ==> path == featdir + "tmp/tmp." + nj + ".wav"
  {
    var name := "tmp." + nj + ".wav";
    assert featdir + "/" + "tmp" + "/" + name == featdir + "/tmp/tmp." + nj + ".wav";
    assert featdir + "tmp" + "/" + name == featdir + "tmp/tmp." + nj + ".wav";
    PathJoin3(featdir, "tmp", name)
  }

  /** `raw_jitter_<last component of datadir>.<nj>.txt`, the name of the job's feature archive. */
  function ArchiveFileName(datadir: string, nj: string): (name: string)
    ensures "raw_jitter_" + LastComponent(datadir) <= name
    ensures EndsWith(name, "." + nj + "." + "txt")
    ensures '/' !in nj ==> '/' !in name
  {
    var front := "raw_jitter_" + LastComponent(datadir);
    var suffix := "." + nj + "." + "txt";
    assert "raw_jitter_" + LastComponent(datadir) + "." + nj + ".txt" == front + suffix;
    EndsWithConcat(front, suffix);
    "raw_jitter_" + LastComponent(datadir) + "." + nj + ".txt"
  }

  /** `<featdir>/raw_jitter_<last component of datadir>.<nj>.txt`, the job's feature archive. */
  function ArchivePath(featdir: string, datadir: string, nj: string): (path: string)
    ensures featdir <= path && EndsWith(path, ArchiveFileName(datadir, nj))
    ensures |featdir| > 0 && featdir[|featdir| - 1] != '/' ==> path == featdir + "/" + ArchiveFileName(datadir, nj)
    ensures |featdir| == 0 || featdir[|featdir| - 1] == '/' ==> path == featdir + ArchiveFileName(datadir, nj)
  {
    PathJoin(featdir, ArchiveFileName(datadir, nj))
  }

  /** The scratch wav is named after the job number, which can be read back from the name. */
  lemma TmpWavName(featdir: string, nj: string)
    requires '/' !in nj && '.' !in nj
    ensures LastComponent(TmpWav(featdir, nj)) == "tmp." + nj + ".wav"
    ensures JobNumber(LastComponent(TmpWav(featdir, nj))) == Ok(nj)
  {
    TmpWavLast(featdir, nj);
    TmpName(nj);
    JobNumberOfName("tmp", nj, "wav");
  }

  lemma TmpName(nj: string)
    ensures "tmp." + nj + ".wav" == "tmp" + "." + nj + "." + "wav"
  {
    assert "tmp." == "tmp" + "." && ".wav" == "." + "wav";
  }

  lemma TmpWavLast(featdir: string, nj: string)
    requires '/' !in nj
    ensures LastComponent(TmpWav(featdir, nj)) == "tmp." + nj + ".wav"
  {
    var name := "tmp." + nj + ".wav";
    assert '/' !in name;
    LastComponentOfJoin(PathJoin(featdir, "tmp"), name);
  }

  /** The archive is named after the data set and the job number. */
  lemma ArchiveName(featdir: string, datadir: string, nj: string)
    requires '/' !in nj
    ensures LastComponent(ArchivePath(featdir, datadir, nj)) == "raw_jitter_" + LastComponent(datadir) + "." + nj + ".txt"
  {
    var name := ArchiveFileName(datadir, nj);
    LastComponentOfJoin(featdir, name);
  }

  /** The job number can be read back from the archive's path. */
  lemma ArchiveJobNumber(featdir: string, datadir: string, nj: string)
    requires '.' !in nj
    ensures JobNumber(ArchivePath(featdir, datadir, nj)) == Ok(nj)
  {
    EndsWithTransitive(ArchivePath(featdir, datadir, nj), ArchiveFileName(datadir, nj), "." + nj + "." + "txt");
    JobNumberOfSuffix(ArchivePath(featdir, datadir, nj), nj, "txt");
  }
}

=== FILE: jitter_records.dfy ===
/**
 * The records of a segment-mode job: each `segments` line is split into its
 * four fields, its recording is looked up in `wav.scp`, and the two are
 * combined into one "key, command" string, from which the key and the shell
 * command are later split off again.
 */
module JitterRecords {
  import opened Results
  import opened Strings

  /** The four fields of a `segments` line. */
  datatype Segment = Segment(uttId: string, recId: string, start: string, end: string)

  /** The exceptions building a record can end in. */
  datatype RecordError =
    | BadSegmentLine(line: string)
    | UnknownRecording(recId: string)
    | BadWavScpLine(line: string)
    | BadTimes(start: string, end: string)

  /** The fields of a segment as the line they are written on. */
  function SegmentFields(seg: Segment): seq<string> {
    [seg.uttId, seg.recId, seg.start, seg.end]
  }

  /** `utt_id, rec_id, start, end = segment.split(" ")`: exactly four fields, or an unpacking error. */
  function ParseSegment(line: string): (r: Result<Segment, RecordError>)
    ensures r.Ok? <==> |Split(line, ' ')| == 4
    ensures r.Err? ==> r.error == BadSegmentLine(line)
    ensures r.Ok? ==> Join(SegmentFields(r.value), ' ') == line && Separable(SegmentFields(r.value), ' ')
  {
    var fields := Split(line, ' ');
    if |fields| == 4 then
      assert SegmentFields(Segment(fields[0], fields[1], fields[2], fields[3])) == fields;
      Ok(Segment(fields[0], fields[1], fields[2], fields[3]))
    else Err(BadSegmentLine(line))
  }

  /** A segment whose fields have no spaces is read back from its line. */
  lemma SegmentRoundTrip(seg: Segment)
    requires Separable(SegmentFields(seg), ' ')
    ensures ParseSegment(Join(SegmentFields(seg), ' ')) == Ok(seg)
  {
    SplitJoin(SegmentFields(seg), ' ');
  }

  /** `lines[i]` is the first of `lines` that contains `needle`. */
  predicate FirstContaining(lines: seq<string>, needle: string, i: nat) {
    && i < |lines|
    && Contains(lines[i], needle)
    && forall j :: 0 <= j < i ==> !Contains(lines[j], needle)
  }

  /** The position of the first line that contains `needle`, if any does. */
  function FindContaining(lines: seq<string>, needle: string): (i: Option<nat>)
    ensures i.Some? ==> FirstContaining(lines, needle, i.value)
    ensures i.None? ==> forall j :: 0 <= j < |lines| ==> !Contains(lines[j], needle)
  {
    if |lines| == 0 then None
    else if Contains(lines[0], needle) then Some(0)
    else
      match FindContaining(lines[1..], needle)
      case None => None
      case Some(k) => Some(k + 1)
  }

  /**
   * `[f for f in wavscp if rec_id in f][0].split(" ", 1)`, second part: the
   * first line that contains the recording id anywhere, not only as its key,
   * and the text after that line's first space.
   */
  function LookupWav(wavscp: seq<string>, recId: string): (r: Result<string, RecordError>)
    ensures r == Err(UnknownRecording(recId)) <==> forall j :: 0 <= j < |wavscp| ==> !Contains(wavscp[j], recId)
    ensures r.Ok? ==> exists i: nat :: FirstContaining(wavscp, recId, i) && SplitOnce(wavscp[i], ' ') == [SplitOnce(wavscp[i], ' ')[0], r.value]
    ensures r.Err? && r.error.BadWavScpLine? ==> exists i: nat :: FirstContaining(wavscp, recId, i) && ' ' !in wavscp[i]
    ensures forall i: nat :: FirstContaining(wavscp, recId, i) ==> (r.Ok? <==> ' ' in wavscp[i])
    ensures forall i: nat :: FirstContaining(wavscp, recId, i) && ' ' !in wavscp[i] ==> r == Err(BadWavScpLine(wavscp[i]))
  {
    match FindContaining(wavscp, recId)
    case None => Err(UnknownRecording(recId))
    case Some(i) =>
      var parts := SplitOnce(wavscp[i], ' ');
      if |parts| == 2 then Ok(parts[1]) else Err(BadWavScpLine(wavscp[i]))
  }

  /**
   * The lookup reads the key-value pair of the first matching line: when
   * that line is `key + " " + value` with a space-free key, the source is
   * `value`, spaces and all.
   */
  lemma LookupKeyValue(wavscp: seq<string>, recId: string, i: nat, key: string, value: string)
    requires FirstContaining(wavscp, recId, i)
    requires wavscp[i] == key + " " + value && ' ' !in key
    ensures LookupWav(wavscp, recId) == Ok(value)
  {
    var line := wavscp[i];
    assert line[|key|] == ' ' && line[..|key|] == key;
    IndexOfFirst(line, ' ', |key|);
    assert line[|key| + 1..] == value;
    var k := FindContaining(wavscp, recId);
    assert k.Some?;
    assert k.value == i;
  }

  /**
   * Matching by containment, not by key: a line for another recording whose id
   * merely contains the one looked up shadows the right line when it comes first.
   */
  lemma LookupMatchesInsideKeys()
    ensures LookupWav(["xa_rec-F sox x.wav", "a_rec-F sox a.wav"], "a_rec-F") == Ok("sox x.wav")
  {
    var lines := ["xa_rec-F sox x.wav", "a_rec-F sox a.wav"];
    assert OccursAt(lines[0], "a_rec-F", 1);
    ContainsOccurrence(lines[0], "a_rec-F", 1);
    LookupKeyValue(lines, "a_rec-F", 0, "xa_rec-F", "sox x.wav");
  }

  /**
   * The shell command that pipes the recording's source into a second sox,
   * which writes the scratch wav trimmed from `start` for `length` seconds.
   */
  function TrimCommand(source: string, tmpWav: string, start: string, length: string): (command: string)
    ensures source + " sox " <= command
    ensures EndsWith(command, " trim " + start + " " + length)
    ensures EndsWith(command, " -t wav - -t wav " + tmpWav + " trim " + start + " " + length)
  {
    TrimShape(source, tmpWav, start, length);
    source + " sox -t wav - -t wav " + tmpWav + " trim " + start + " " + length
  }

  lemma TrimShape(source: string, tmpWav: string, start: string, length: string)
    ensures var command := source + " sox -t wav - -t wav " + tmpWav + " trim " + start + " " + length;
      && source + " sox " <= command
      && EndsWith(command, " trim " + start + " " + length)
      && EndsWith(command, " -t wav - -t wav " + tmpWav + " trim " + start + " " + length)
  {
    TrimPrefix(source, tmpWav, start, length);
    TrimSuffix(source, tmpWav, start, length);
    TrimOutput(source, tmpWav, start, length);
  }

  lemma TrimPrefix(source: string, tmpWav: string, start: string, length: string)
    ensures source + " sox " <= source + " sox -t wav - -t wav " + tmpWav + " trim " + start + " " + length
  {
    var rest := "-t wav - -t wav " + tmpWav + " trim " + start + " " + length;
    assert source + " sox -t wav - -t wav " + tmpWav + " trim " + start + " " + length == (source + " sox ") + rest;
  }

  lemma TrimSuffix(source: string, tmpWav: string, start: string, length: string)
    ensures EndsWith(source + " sox -t wav - -t wav " + tmpWav + " trim " + start + " " + length, " trim " + start + " " + length)
  {
    var trim := " trim " + start + " " + length;
    assert source + " sox -t wav - -t wav " + tmpWav + " trim " + start + " " + length == (source + " sox -t wav - -t wav " + tmpWav) + trim;
    EndsWithConcat(source + " sox -t wav - -t wav " + tmpWav, trim);
  }

  lemma TrimOutput(source: string, tmpWav: string, start: string, length: string)
    ensures EndsWith(source + " sox -t wav - -t wav " + tmpWav + " trim " + start + " " + length,
      " -t wav - -t wav " + tmpWav + " trim " + start + " " + length)
  {
    var output := " -t wav - -t wav " + tmpWav + " trim " + start + " " + length;
    assert source + " sox -t wav - -t wav " + tmpWav + " trim " + start + " " + length == (source + " sox") + output;
    EndsWithConcat(source + " sox", output);
  }

  /**
   * `'{}, {}'.format(utt_id, command)`: the record of one segment. It splits
   * back into the utterance id, provided the id has no comma, and into the
   * command after the comma, which keeps its leading space and any commas of
   * its own.
   */
  function BuildRecord(uttId: string, command: string): (record: string)
    ensures ',' !in uttId ==> RecordKey(record) == uttId && RecordCommand(record) == " " + command
  {
    KeyCommandSplit(uttId, command);
    uttId + ", " + command
  }

  /**
   * The record of one `segments` line, or the first error on the way: the
   * fields, then the `wav.scp` source, then `float(end) - float(start)`,
   * which `trimLength` stands for (`None` where `float` fails).
   */
  function RecordOf(
    wavscp: seq<string>, line: string, tmpWav: string, trimLength: (string, string) -> Option<string>
  ): (r: Result<string, RecordError>)
    ensures ParseSegment(line).Err? ==> r == Err(BadSegmentLine(line))
    ensures ParseSegment(line).Ok? ==>
      var seg := ParseSegment(line).value;
      var source := LookupWav(wavscp, seg.recId);
      && (source.Err? ==> r == Err(source.error))
      && (source.Ok? && trimLength(seg.start, seg.end).None? ==> r == Err(BadTimes(seg.start, seg.end)))
      && (source.Ok? && trimLength(seg.start, seg.end).Some? ==>
            r == Ok(BuildRecord(seg.uttId, TrimCommand(source.value, tmpWav, seg.start, trimLength(seg.start, seg.end).value))))
    ensures r.Ok? ==> exists seg, source, length ::
      && ParseSegment(line) == Ok(seg)
      && LookupWav(wavscp, seg.recId) == Ok(source)
      && trimLength(seg.start, seg.end) == Some(length)
      && r.value == BuildRecord(seg.uttId, TrimCommand(source, tmpWav, seg.start, length))
  {
    var seg :- ParseSegment(line);
    var source :- LookupWav(wavscp, seg.recId);
    match trimLength(seg.start, seg.end)
    case None => Err(BadTimes(seg.start, seg.end))
    case Some(length) => Ok(BuildRecord(seg.uttId, TrimCommand(source, tmpWav, seg.start, length)))
  }

  /**
   * A loop that appends `f(x)` for each `x` in turn and stops at the first
   * error: all the values, in order, or the error of the first element that
   * has none.
   */
  method CollectAll<T, E>(xs: seq<string>, f: string -> Result<T, E>) returns (r: Result<seq<T>, E>)
    ensures r.Ok? <==> forall i :: 0 <= i < |xs| ==> f(xs[i]).Ok?
    ensures r.Ok? ==> |r.value| == |xs| && forall i :: 0 <= i < |xs| ==> Ok(r.value[i]) == f(xs[i])
    ensures r.Err? ==>
      exists k :: 0 <= k < |xs| && f(xs[k]) == Err(r.error) && (forall j :: 0 <= j < k ==> f(xs[j]).Ok?)
  {
    var values: seq<T> := [];
    var n := 0;
    while n < |xs|
      invariant 0 <= n <= |xs|
      invariant |values| == n
      invariant forall i :: 0 <= i < n ==> Ok(values[i]) == f(xs[i])
    {
      var value := f(xs[n]);
      if value.Err? {
        return Err(value.error);
      }
      values := values + [value.value];
      n := n + 1;
    }
    return Ok(values);
  }

  /**
   * The loop over the `segments` lines: one record per line, in order, or the
   * error of the first line that has none.
   */
  method BuildRecordings(
    wavscp: seq<string>, segments: seq<string>, tmpWav: string, trimLength: (string, string) -> Option<string>
  ) returns (r: Result<seq<string>, RecordError>)
    ensures r.Ok? <==> forall i :: 0 <= i < |segments| ==> RecordOf(wavscp, segments[i], tmpWav, trimLength).Ok?
    ensures r.Ok? ==> |r.value| == |segments|
    ensures r.Ok? ==> forall i :: 0 <= i < |segments| ==> Ok(r.value[i]) == RecordOf(wavscp, segments[i], tmpWav, trimLength)
    ensures r.Err? ==>
      exists k :: 0 <= k < |segments|
        && RecordOf(wavscp, segments[k], tmpWav, trimLength) == Err(r.error)
        && (forall j :: 0 <= j < k ==> RecordOf(wavscp, segments[j], tmpWav, trimLength).Ok?)
  {
    r := CollectAll(segments, line => RecordOf(wavscp, line, tmpWav, trimLength));
  }

  /**
   * `recordings`: in segment mode one record per `segments` line; in any
   * other mode the `wav.scp` lines themselves, unchanged.
   */
  method JobRecordings(
    mode: string, wavscp: seq<string>, segments: seq<string>, tmpWav: string, trimLength: (string, string) -> Option<string>
  ) returns (r: Result<seq<string>, RecordError>)
    ensures mode != "segment" ==> r == Ok(wavscp)
    ensures mode == "segment" ==>
      (r.Ok? <==> forall i :: 0 <= i < |segments| ==> RecordOf(wavscp, segments[i], tmpWav, trimLength).Ok?)
    ensures mode == "segment" && r.Ok? ==>
      && |r.value| == |segments|
      && forall i :: 0 <= i < |segments| ==> Ok(r.value[i]) == RecordOf(wavscp, segments[i], tmpWav, trimLength)
  {
    if mode == "segment" {
      r := BuildRecordings(wavscp, segments, tmpWav, trimLength);
    } else {
      r := Ok(wavscp);
    }
  }

  /** `record.split(',')[0]`: the text before the first comma, the key written to the archive. */
  function RecordKey(record: string): (key: string)
    ensures ',' !in key && key <= record
    ensures ',' !in record ==> key == record
    ensures ',' in record ==> record[|key|] == ','
  {
    var parts := Split(record, ',');
    SplitOnceAgreesWithSplit(record, ',');
    parts[0]
  }

  /** `record.split(',', 1)[-1]`: the text after the first comma, the shell command run for the record. */
  function RecordCommand(record: string): (command: string)
    ensures ',' in record ==> RecordKey(record) + "," + command == record
    ensures ',' !in record ==> command == record
  {
    var parts := SplitOnce(record, ',');
    SplitOnceAgreesWithSplit(record, ',');
    parts[|parts| - 1]
  }

  /** The text of a record splits at the comma that follows a comma-free id. */
  lemma KeyCommandSplit(uttId: string, command: string)
    ensures ',' !in uttId ==>
      RecordKey(uttId + ", " + command) == uttId && RecordCommand(uttId + ", " + command) == " " + command
  {
    if ',' !in uttId {
      var record := uttId + ", " + command;
      assert record == uttId + [','] + (" " + command);
      assert record[|uttId|] == ',' && record[..|uttId|] == uttId;
      IndexOfFirst(record, ',', |uttId|);
      SplitOnceAgreesWithSplit(record, ',');
    }
  }

  /** An utterance id with a comma in it is cut short in the archive. */
  lemma CommaInKeyTruncates()
    ensures RecordKey(BuildRecord("a,b", "sox")) == "a"
  {
    assert BuildRecord("a,b", "sox") == "a" + [','] + "b, sox";
    KeyBeforeComma("a", "b, sox");
  }

  /** The key of a text is whatever precedes its first comma. */
  lemma KeyBeforeComma(key: string, rest: string)
    requires ',' !in key
    ensures RecordKey(key + [','] + rest) == key
  {
    var record := key + [','] + rest;
    assert record[|key|] == ',' && record[..|key|] == key;
    IndexOfFirst(record, ',', |key|);
  }
}

=== FILE: kaldi_data.dfy ===
/**
 * The Kaldi data directory that the preparation script writes for one song:
 * the recording, utterance and speaker ids derived from the audio id and a
 * gender, and the one-line `spk2gender`, `wav.scp`, `segments` and `utt2spk`
 * files built from them.
 */
module KaldiData {
  import opened Results
  import opened Strings
  import opened PosixPath

  /** The fields `Song.__init__` keeps. */
  datatype Song = Song(audioId: string, audio: string, datadir: string, gender: string)

  /** The three kinds of id a song gets. */
  datatype IdKind = Recording | Utterance | Speaker

  /** The text between the audio id and the upper-cased gender in an id of each kind. */
  function Tag(kind: IdKind): string {
    match kind
    case Recording => "_rec-"
    case Utterance => "_01-"
    case Speaker => "_spk-"
  }

  /** What follows the audio id in an id of a kind: the kind's tag and the upper-cased gender. */
  function IdSuffix(kind: IdKind, gender: string): string {
    Tag(kind) + Upper(gender)
  }

  /** The id of a kind: audio id, kind tag, upper-cased gender. */
  function MakeId(kind: IdKind, audioId: string, gender: string): (id: string)
    ensures audioId <= id && EndsWith(id, IdSuffix(kind, gender))
    ensures |id| == |audioId| + |Tag(kind)| + |gender|
  {
    EndsWithConcat(audioId, IdSuffix(kind, gender));
    audioId + IdSuffix(kind, gender)
  }

  function IdOf(s: Song, kind: IdKind): string {
    MakeId(kind, s.audioId, s.gender)
  }

  function RecId(s: Song): string {
    IdOf(s, Recording)
  }

  function UttId(s: Song): string {
    IdOf(s, Utterance)
  }

  function SpkId(s: Song): string {
    IdOf(s, Speaker)
  }

  /** What an id says about the song it came from. */
  datatype IdParts = IdParts(kind: IdKind, audioId: string)

  /** Recovers the kind and the audio id from an id, given the gender it was made with. */
  function DecodeId(id: string, gender: string): (parts: Option<IdParts>)
    ensures parts.Some? ==> MakeId(parts.value.kind, parts.value.audioId, gender) == id
  {
    if EndsWith(id, IdSuffix(Recording, gender)) then
      Some(IdParts(Recording, DropSuffix(id, IdSuffix(Recording, gender))))
    else if EndsWith(id, IdSuffix(Utterance, gender)) then
      Some(IdParts(Utterance, DropSuffix(id, IdSuffix(Utterance, gender))))
    else if EndsWith(id, IdSuffix(Speaker, gender)) then
      Some(IdParts(Speaker, DropSuffix(id, IdSuffix(Speaker, gender))))
    else None
  }

  /**
   * Every id decodes to the kind and audio id it was made from, whatever the
   * audio id and the gender: the tags differ at their second-to-last
   * character, so no id ends in the suffix of another kind.
   */
  lemma IdRoundTrip(kind: IdKind, audioId: string, gender: string)
    ensures DecodeId(MakeId(kind, audioId, gender), gender) == Some(IdParts(kind, audioId))
  {
    var g := Upper(gender);
    var id := MakeId(kind, audioId, gender);
    var n := |id|;
    DropConcatSuffix(audioId, IdSuffix(kind, gender));
    match kind
    case Recording =>
    case Utterance =>
      assert id[n - |g| - 2] == IdSuffix(Utterance, gender)[2] == '1';
      NotEndsWith(id, IdSuffix(Recording, gender), 3);
    case Speaker =>
      assert id[n - |g| - 2] == IdSuffix(Speaker, gender)[3] == 'k';
      NotEndsWith(id, IdSuffix(Recording, gender), 3);
      NotEndsWith(id, IdSuffix(Utterance, gender), 2);
  }

  /** Two ids made with one gender are equal only when kind and audio id are. */
  lemma IdInjective(kind1: IdKind, audioId1: string, kind2: IdKind, audioId2: string, gender: string)
    ensures MakeId(kind1, audioId1, gender) == MakeId(kind2, audioId2, gender)
      <==> kind1 == kind2 && audioId1 == audioId2
  {
    IdRoundTrip(kind1, audioId1, gender);
    IdRoundTrip(kind2, audioId2, gender);
  }

  /** The three ids of a song are pairwise distinct. */
  lemma IdsPairwiseDistinct(s: Song)
    ensures RecId(s) != UttId(s) && UttId(s) != SpkId(s) && RecId(s) != SpkId(s)
  {
    IdRoundTrip(Recording, s.audioId, s.gender);
    IdRoundTrip(Utterance, s.audioId, s.gender);
    IdRoundTrip(Speaker, s.audioId, s.gender);
  }

  /** The fixed tail of every `wav.scp` line: sox writes a 16 kHz mono wav to standard output. */
  const WavScpOptions := "-G -t wav -r 16000 -c 1 - remix 1 |"

  /** How Python formats the segment start `0.0`. */
  const SegmentStart := "0.0"

  /** Neither the audio id nor the gender contain a space, so ids are single fields. */
  predicate SpaceFree(s: Song) {
    ' ' !in s.audioId && ' ' !in s.gender
  }

  lemma IdSpaceFree(s: Song, kind: IdKind)
    ensures SpaceFree(s) ==> ' ' !in IdOf(s, kind)
  {
    if SpaceFree(s) {
      UpperAvoids(s.gender, ' ');
    }
  }

  /**
   * The `spk2gender` line: the speaker id and the gender as given, not
   * upper-cased; it splits back into the two.
   */
  function Spk2GenderLine(s: Song): (line: string)
    ensures SpaceFree(s) ==> Split(line, ' ') == [SpkId(s), s.gender]
  {
    Spk2GenderFields(s);
    SpkId(s) + " " + s.gender
  }

  lemma Spk2GenderFields(s: Song)
    ensures SpaceFree(s) ==> Split(SpkId(s) + " " + s.gender, ' ') == [SpkId(s), s.gender]
  {
    if SpaceFree(s) {
      IdSpaceFree(s, Speaker);
      SplitTwo(SpkId(s), s.gender, ' ');
    }
  }

  /** The sox pipe command that reads the audio: it ends in the fixed options whatever the audio path holds. */
  function WavSource(s: Song): (source: string)
    ensures "sox " <= source && EndsWith(source, WavScpOptions)
  {
    EndsWithConcat("sox " + s.audio + " ", WavScpOptions);
    "sox " + s.audio + " " + WavScpOptions
  }

  /**
   * The `wav.scp` line: it starts with the recording id, `sox` and the audio
   * path, ends in the fixed options, and is keyed by the recording id with
   * the sox command as the rest.
   */
  function WavScpLine(s: Song): (line: string)
    ensures RecId(s) + " sox " + s.audio <= line
    ensures EndsWith(line, WavScpOptions)
    ensures SpaceFree(s) ==> SplitOnce(line, ' ') == [RecId(s), WavSource(s)]
  {
    WavScpShape(RecId(s), s.audio);
    WavScpFields(s);
    RecId(s) + " " + WavSource(s)
  }

  lemma WavScpFields(s: Song)
    ensures SpaceFree(s) ==> SplitOnce(RecId(s) + " " + WavSource(s), ' ') == [RecId(s), WavSource(s)]
  {
    if SpaceFree(s) {
      IdSpaceFree(s, Recording);
      SplitOnceKey(RecId(s), WavSource(s), ' ');
    }
  }

  lemma WavScpShape(id: string, audio: string)
    ensures var line := id + " " + ("sox " + audio + " " + WavScpOptions);
      id + " sox " + audio <= line && EndsWith(line, WavScpOptions)
  {
    var front := id + " " + "sox " + audio + " ";
    var line := id + " " + ("sox " + audio + " " + WavScpOptions);
    assert line == front + WavScpOptions;
    EndsWithConcat(front, WavScpOptions);
    assert line[..|id + " sox " + audio|] == id + " sox " + audio;
  }

  /**
   * The `segments` line: one segment covering the whole recording, in four
   * fields; `duration` is Python's text for the audio length.
   */
  function SegmentsLine(s: Song, duration: string): (line: string)
    ensures SpaceFree(s) && ' ' !in duration ==> Split(line, ' ') == [UttId(s), RecId(s), SegmentStart, duration]
  {
    SegmentsFields(s, duration);
    UttId(s) + " " + RecId(s) + " " + SegmentStart + " " + duration
  }

  lemma SegmentsFields(s: Song, duration: string)
    ensures SpaceFree(s) && ' ' !in duration ==>
      Split(UttId(s) + " " + RecId(s) + " " + SegmentStart + " " + duration, ' ')
        == [UttId(s), RecId(s), SegmentStart, duration]
  {
    if SpaceFree(s) && ' ' !in duration {
      IdSpaceFree(s, Utterance);
      IdSpaceFree(s, Recording);
      SplitFour(UttId(s), RecId(s), SegmentStart, duration, ' ');
    }
  }

  /** The `utt2spk` line: the utterance id and the speaker id, which it splits back into. */
  function Utt2SpkLine(s: Song): (line: string)
    ensures SpaceFree(s) ==> Split(line, ' ') == [UttId(s), SpkId(s)]
  {
    Utt2SpkFields(s);
    UttId(s) + " " + SpkId(s)
  }

  lemma Utt2SpkFields(s: Song)
    ensures SpaceFree(s) ==> Split(UttId(s) + " " + SpkId(s), ' ') == [UttId(s), SpkId(s)]
  {
    if SpaceFree(s) {
      IdSpaceFree(s, Utterance);
      IdSpaceFree(s, Speaker);
      SplitTwo(UttId(s), SpkId(s), ' ');
    }
  }

  /**
   * The four files agree with each other: the recording a segment names is the
   * key of the `wav.scp` line, `utt2spk` is keyed by the segment's utterance,
   * and the speaker it names is the key of the `spk2gender` line.
   */
  lemma FilesAgree(s: Song, duration: string)
    requires SpaceFree(s) && ' ' !in duration
    ensures Split(SegmentsLine(s, duration), ' ')[1] == SplitOnce(WavScpLine(s), ' ')[0]
    ensures Split(Utt2SpkLine(s), ' ')[0] == Split(SegmentsLine(s, duration), ' ')[0]
    ensures Split(Utt2SpkLine(s), ' ')[1] == Split(Spk2GenderLine(s), ' ')[0]
  {
  }

  /** The gender `main` fixes for every song. */
  const MainGender := "f"

  /** The song `main` builds: every id it derives ends in the marker `-F`. */
  function MainSong(audioId: string, audio: string, datadir: string): (s: Song)
    ensures s.audioId == audioId && s.audio == audio && s.datadir == datadir
    ensures forall kind :: EndsWith(IdOf(s, kind), "-F")
  {
    var s := Song(audioId, audio, datadir, MainGender);
    assert Upper(MainGender) == "F";
    s
  }

  /** A file the script writes: its path and its whole content. */
  datatype KaldiFile = KaldiFile(path: string, content: string)

  /** The names of the files `main` writes, in the order it writes them. */
  const FileNames := ["spk2gender", "wav.scp", "segments", "utt2spk"]

  lemma FileNamesInDir(datadir: string)
    ensures forall i :: 0 <= i < |FileNames| ==> LastComponent(PathJoin(datadir, FileNames[i])) == FileNames[i]
  {
    forall i | 0 <= i < |FileNames|
      ensures LastComponent(PathJoin(datadir, FileNames[i])) == FileNames[i]
    {
      assert '/' !in FileNames[i];
      LastComponentOfJoin(datadir, FileNames[i]);
    }
  }

  /**
   * `main`: the four files, in the order they are written, each holding one
   * line with no final newline, all inside the data directory.
   */
  function PrepareData(audioId: string, audio: string, datadir: string, duration: string): (files: seq<KaldiFile>)
    ensures |files| == |FileNames|
    ensures forall i :: 0 <= i < |files| ==> LastComponent(files[i].path) == FileNames[i]
    ensures forall i :: 0 <= i < |files| ==> files[i].path == PathJoin(datadir, FileNames[i])
    ensures var s := MainSong(audioId, audio, datadir);
      forall i :: 0 <= i < |files| ==>
        files[i].content == [Spk2GenderLine(s), WavScpLine(s), SegmentsLine(s, duration), Utt2SpkLine(s)][i]
  {
    var s := MainSong(audioId, audio, datadir);
    FilesInDir(datadir, [Spk2GenderLine(s), WavScpLine(s), SegmentsLine(s, duration), Utt2SpkLine(s)])
  }

  /** The files named `FileNames` in the data directory, holding the given contents in order. */
  function FilesInDir(datadir: string, contents: seq<string>): (files: seq<KaldiFile>)
    requires |contents| == |FileNames|
    ensures |files| == |FileNames|
    ensures forall i :: 0 <= i < |files| ==> files[i].path == PathJoin(datadir, FileNames[i]) && files[i].content == contents[i]
    ensures forall i :: 0 <= i < |files| ==> LastComponent(files[i].path) == FileNames[i]
  {
    FileNamesInDir(datadir);
    seq(|FileNames|, i requires 0 <= i < |FileNames| => KaldiFile(PathJoin(datadir, FileNames[i]), contents[i]))
  }
}

=== FILE: posix_path.dfy ===
/** The parts of Python's `posixpath` the scripts use to name files. */
module PosixPath {
  import opened Strings

  predicate Absolute(path: string) {
    |path| > 0 && path[0] == '/'
  }

  /**
   * `os.path.join(a, b)`: an absolute `b` replaces `a`; otherwise `b` is
   * appended to `a`, after a slash unless `a` is empty or already ends in one.
   */
  function PathJoin(a: string, b: string): (p: string)
    ensures |b| <= |p| && p[|p| - |b|..] == b
    ensures !Absolute(b) ==> a <= p
    ensures Absolute(b) ==> p == b
    ensures !Absolute(b) && |a| > 0 && a[|a| - 1] != '/' ==> |p| == |a| + 1 + |b| && p[|a|] == '/'
    ensures !Absolute(b) && (|a| == 0 || a[|a| - 1] == '/') ==> p == a + b
    ensures !Absolute(b) && |a| > 0 && a[|a| - 1] != '/' ==> p == a + "/" + b
  {
    if Absolute(b) then b
    else if |a| == 0 || a[|a| - 1] == '/' then a + b
    else a + "/" + b
  }

  /** `os.path.join(a, b, c)`. */
  function PathJoin3(a: string, b: string, c: string): (p: string)
    ensures |c| <= |p| && p[|p| - |c|..] == c
    ensures Absolute(c) ==> p == c
    ensures !Absolute(b) && !Absolute(c) ==> a <= p
    ensures Absolute(b) && !Absolute(c) ==> b <= p
    ensures !Absolute(b) && !Absolute(c) && |a| > 0 && a[|a| - 1] != '/' && |b| > 0 && b[|b| - 1] != '/'
      ==> p == a + "/" + b + "/" + c
  {
    PathJoin(PathJoin(a, b), c)
  }

  /** `path.split('/')[-1]`: the text after the last slash, or all of `path` when it has none. */
  function LastComponent(path: string): (name: string)
    ensures '/' !in name
    ensures |name| <= |path| && path[|path| - |name|..] == name
    ensures |name| < |path| ==> path[|path| - |name| - 1] == '/'
    ensures '/' !in path ==> name == path
  {
    var parts := Split(path, '/');
    LastPieceIsSuffix(parts, '/');
    parts[|parts| - 1]
  }

  /** Joining a plain name onto any directory gives a path whose last component is that name. */
  lemma LastComponentOfJoin(dir: string, name: string)
    requires '/' !in name
    ensures LastComponent(PathJoin(dir, name)) == name
  {
    var p := PathJoin(dir, name);
    var front := if |dir| > 0 && dir[|dir| - 1] == '/' then dir[..|dir| - 1] else dir;
    assert Split(name, '/') == [name];
    if |dir| == 0 {
      assert p == name;
    } else {
      assert p == front + ['/'] + name;
      SplitAppend(front, name, '/');
      var parts := Split(p, '/');
      assert parts == Split(front, '/') + [name];
      assert parts[|parts| - 1] == name;
    }
  }
}

=== FILE: results.dfy ===
/** The outcome of an operation that the source can abort with an exception. */
module Results {

  datatype Result<+T, +E> = Ok(value: T) | Err(error: E) {

    predicate IsFailure() {
      Err?
    }

    function PropagateFailure<U>(): Result<U, E>
      requires Err?
    {
      Err(error)
    }

    function Extract(): T
      requires Ok?
    {
      value
    }
  }

  datatype Option<+T> = None | Some(value: T)
}

=== FILE: strings.dfy ===
/**
 * The handful of Python `str` operations the data-preparation scripts rely on,
 * with their Python semantics: `in` on strings, `split` with an explicit
 * one-character separator (with and without `maxsplit=1`), `upper`, `lower`,
 * `rstrip`, and the line iteration of a text file.
 */
module Strings {

  /** `needle` occurs in `hay` starting at index `i`. */
  predicate OccursAt(hay: string, needle: string, i: nat) {
    i + |needle| <= |hay| && hay[i..i + |needle|] == needle
  }

  /** Python's `needle in hay`. */
  predicate Contains(hay: string, needle: string)
    decreases |hay|
  {
    needle <= hay || (|hay| > 0 && Contains(hay[1..], needle))
  }

  /** `Contains` holds exactly when there is a position where `needle` occurs. */
  lemma {:induction false} ContainsIffOccurs(hay: string, needle: string)
    ensures Contains(hay, needle) <==> exists i: nat :: OccursAt(hay, needle, i)
    decreases |hay|
  {
    assert OccursAt(hay, needle, 0) <==> needle <= hay;
    if needle <= hay {
    } else if |hay| == 0 {
    } else {
      ContainsIffOccurs(hay[1..], needle);
      if Contains(hay[1..], needle) {
        var j: nat :| OccursAt(hay[1..], needle, j);
        assert hay[1..][j..j + |needle|] == hay[j + 1..j + 1 + |needle|];
        assert OccursAt(hay, needle, j + 1);
      } else {
        forall i: nat | 0 < i
          ensures OccursAt(hay, needle, i) ==> OccursAt(hay[1..], needle, i - 1)
        {
          if i + |needle| <= |hay| {
            assert hay[1..][i - 1..i - 1 + |needle|] == hay[i..i + |needle|];
          }
        }
      }
    }
  }

  /** A string contains every slice of it. */
  lemma ContainsOccurrence(hay: string, needle: string, i: nat)
    requires OccursAt(hay, needle, i)
    ensures Contains(hay, needle)
  {
    ContainsIffOccurs(hay, needle);
  }

  /** The index of the first occurrence of `c` in `s`. */
  function IndexOf(s: string, c: char): (i: nat)
    requires c in s
    ensures i < |s| && s[i] == c
    ensures c !in s[..i]
  {
    if s[0] == c then 0
    else
      var j := IndexOf(s[1..], c);
      assert s[..j + 1] == [s[0]] + s[1..][..j];
      j + 1
  }

  /** The first occurrence of `c` is the one before which `c` does not occur. */
  lemma IndexOfFirst(s: string, c: char, k: nat)
    requires k < |s| && s[k] == c && c !in s[..k]
    ensures IndexOf(s, c) == k
  {
    var i := IndexOf(s, c);
    assert forall j :: 0 <= j < k ==> s[..k][j] == s[j];
    assert forall j :: 0 <= j < i ==> s[..i][j] == s[j];
  }

  /** `sep.join(parts)` for a one-character separator and at least one part. */
  function Join(parts: seq<string>, sep: char): string
    requires |parts| > 0
  {
    if |parts| == 1 then parts[0] else parts[0] + [sep] + Join(parts[1..], sep)
  }

  /** No part contains the separator. */
  predicate Separable(parts: seq<string>, sep: char) {
    forall i :: 0 <= i < |parts| ==> sep !in parts[i]
  }

  /**
   * Python's `s.split(sep)`: the maximal pieces between occurrences of `sep`,
   * empty pieces included; a string without `sep` is one piece.
   */
  function Split(s: string, sep: char): (parts: seq<string>)
    ensures |parts| > 0
    ensures Separable(parts, sep)
    ensures Join(parts, sep) == s
    ensures |parts| == 1 <==> sep !in s
    decreases |s|
  {
    if sep !in s then [s]
    else
      var i := IndexOf(s, sep);
      var rest := Split(s[i + 1..], sep);
      assert s == s[..i] + [sep] + s[i + 1..];
      assert ([s[..i]] + rest)[1..] == rest;
      [s[..i]] + rest
  }

  /** Splitting a join of separator-free parts gives the parts back. */
  lemma {:induction false} SplitJoin(parts: seq<string>, sep: char)
    requires |parts| > 0 && Separable(parts, sep)
    ensures Split(Join(parts, sep), sep) == parts
    decreases |parts|
  {
    if |parts| > 1 {
      var p := parts[0];
      var rest := parts[1..];
      SeparableTail(parts, sep);
      var tail := Join(rest, sep);
      assert Join(parts, sep) == p + [sep] + tail;
      SplitAtFirst(p, tail, sep);
      SplitJoin(rest, sep);
      assert parts == [p] + rest;
    }
  }

  lemma SeparableTail(parts: seq<string>, sep: char)
    requires |parts| > 0 && Separable(parts, sep)
    ensures sep !in parts[0] && Separable(parts[1..], sep)
  {
    forall i | 0 <= i < |parts| - 1
      ensures sep !in parts[1..][i]
    {
      assert parts[1..][i] == parts[i + 1];
    }
  }

  /** The first piece of a split is everything before the first separator. */
  lemma SplitAtFirst(p: string, tail: string, sep: char)
    requires sep !in p
    ensures Split(p + [sep] + tail, sep) == [p] + Split(tail, sep)
  {
    var s := p + [sep] + tail;
    assert s[|p|] == sep && s[..|p|] == p;
    IndexOfFirst(s, sep, |p|);
    assert s[|p| + 1..] == tail;
  }

  /** Joining two non-empty lists of parts puts one separator between them. */
  lemma {:induction false} JoinAppend(a: seq<string>, b: seq<string>, sep: char)
    requires |a| > 0 && |b| > 0
    ensures Join(a + b, sep) == Join(a, sep) + [sep] + Join(b, sep)
    decreases |a|
  {
    if |a| == 1 {
      assert (a + b)[1..] == b;
    } else {
      assert (a + b)[1..] == a[1..] + b;
      JoinAppend(a[1..], b, sep);
    }
  }

  /** A separator splits the pieces on its left from the pieces on its right. */
  lemma SplitAppend(a: string, b: string, sep: char)
    ensures Split(a + [sep] + b, sep) == Split(a, sep) + Split(b, sep)
  {
    var pa := Split(a, sep);
    var pb := Split(b, sep);
    JoinAppend(pa, pb, sep);
    SeparableAppend(pa, pb, sep);
    SplitJoin(pa + pb, sep);
  }

  lemma SeparableAppend(a: seq<string>, b: seq<string>, sep: char)
    requires Separable(a, sep) && Separable(b, sep)
    ensures Separable(a + b, sep)
  {
    forall i | 0 <= i < |a + b|
      ensures sep !in (a + b)[i]
    {
      if i < |a| {
        assert (a + b)[i] == a[i];
      } else {
        assert (a + b)[i] == b[i - |a|];
      }
    }
  }

  /** Python's `s.split(sep, 1)`: the piece before the first `sep`, then everything after it. */
  function SplitOnce(s: string, sep: char): (parts: seq<string>)
    ensures |parts| == 1 <==> sep !in s
    ensures |parts| == 1 || |parts| == 2
    ensures sep !in parts[0]
    ensures Join(parts, sep) == s
  {
    if sep in s then
      var i := IndexOf(s, sep);
      assert s == s[..i] + [sep] + s[i + 1..];
      [s[..i], s[i + 1..]]
    else [s]
  }

  /** A piece without the separator splits as itself. */
  lemma SplitSingle(a: string, sep: char)
    requires sep !in a
    ensures Split(a, sep) == [a]
  {
    var parts := Split(a, sep);
    assert |parts| == 1;
    assert Join(parts, sep) == parts[0];
  }

  /** Two separator-free fields joined by the separator split back into the two. */
  lemma SplitTwo(a: string, b: string, sep: char)
    requires sep !in a && sep !in b
    ensures Split(a + [sep] + b, sep) == [a, b]
  {
    SplitAppend(a, b, sep);
    SplitSingle(a, sep);
    SplitSingle(b, sep);
  }

  /** A separator and a separator-free field added to a line add that field to its pieces. */
  lemma SplitMore(line: string, fields: seq<string>, c: string, sep: char)
    requires Split(line, sep) == fields && sep !in c
    ensures Split(line + [sep] + c, sep) == fields + [c]
  {
    SplitAppend(line, c, sep);
    SplitSingle(c, sep);
  }

  /** Four separator-free fields joined by the separator split back into the four. */
  lemma SplitFour(a: string, b: string, c: string, d: string, sep: char)
    requires sep !in a && sep !in b && sep !in c && sep !in d
    ensures Split(a + [sep] + b + [sep] + c + [sep] + d, sep) == [a, b, c, d]
  {
    SplitThree(a, b, c, sep);
    SplitMore(a + [sep] + b + [sep] + c, [a, b, c], d, sep);
    assert [a, b, c] + [d] == [a, b, c, d];
  }

  /** Three separator-free fields joined by the separator split back into the three. */
  lemma SplitThree(a: string, b: string, c: string, sep: char)
    requires sep !in a && sep !in b && sep !in c
    ensures Split(a + [sep] + b + [sep] + c, sep) == [a, b, c]
  {
    SplitTwo(a, b, sep);
    SplitMore(a + [sep] + b, [a, b], c, sep);
    assert [a, b] + [c] == [a, b, c];
  }

  /** `split(sep, 1)` of a separator-free key, the separator and any rest gives the key and the rest. */
  lemma SplitOnceKey(key: string, rest: string, sep: char)
    requires sep !in key
    ensures SplitOnce(key + [sep] + rest, sep) == [key, rest]
  {
    var s := key + [sep] + rest;
    assert s[|key|] == sep && s[..|key|] == key;
    IndexOfFirst(s, sep, |key|);
    assert s[|key| + 1..] == rest;
  }

  /** The first piece of `split(sep, 1)` is the first piece of `split(sep)`, and the second is the rest rejoined. */
  lemma SplitOnceAgreesWithSplit(s: string, sep: char)
    ensures SplitOnce(s, sep)[0] == Split(s, sep)[0]
    ensures |SplitOnce(s, sep)| == 2 ==> SplitOnce(s, sep)[1] == Join(Split(s, sep)[1..], sep)
  {
    var parts := Split(s, sep);
    if |parts| > 1 {
      assert parts == [parts[0]] + parts[1..];
      JoinAppend([parts[0]], parts[1..], sep);
      SplitJoin(parts, sep);
      SplitAppend(parts[0], Join(parts[1..], sep), sep);
      var rest := Join(parts[1..], sep);
      assert s == parts[0] + [sep] + rest;
      assert s[|parts[0]|] == sep && s[..|parts[0]|] == parts[0];
      IndexOfFirst(s, sep, |parts[0]|);
      assert s[|parts[0]| + 1..] == rest;
    }
  }

  /** `s.endswith(suffix)`. */
  predicate EndsWith(s: string, suffix: string) {
    |suffix| <= |s| && s[|s| - |suffix|..] == suffix
  }

  lemma EndsWithConcat(a: string, b: string)
    ensures EndsWith(a + b, b)
  {
    assert (a + b)[|a|..] == b;
  }

  lemma EndsWithTransitive(s: string, t: string, u: string)
    requires EndsWith(s, t) && EndsWith(t, u)
    ensures EndsWith(s, u)
  {
    assert s[|s| - |u|..] == s[|s| - |t|..][|t| - |u|..];
  }

  /** `s` without the `suffix` it ends in. */
  function DropSuffix(s: string, suffix: string): (front: string)
    requires EndsWith(s, suffix)
    ensures front + suffix == s
  {
    s[..|s| - |suffix|]
  }

  lemma DropConcatSuffix(front: string, suffix: string)
    ensures EndsWith(front + suffix, suffix) && DropSuffix(front + suffix, suffix) == front
  {
    assert (front + suffix)[|front|..] == suffix;
  }

  /** A string does not end in a suffix it differs from at one position. */
  lemma NotEndsWith(s: string, suffix: string, j: nat)
    requires j < |suffix|
    requires |suffix| <= |s| ==> s[|s| - |suffix| + j] != suffix[j]
    ensures !EndsWith(s, suffix)
  {
    if |suffix| <= |s| {
      assert s[|s| - |suffix|..][j] == s[|s| - |suffix| + j];
    }
  }

  /** ASCII letters; Python's case mapping of other characters is not modelled. */
  predicate IsLower(c: char) {
    'a' <= c <= 'z'
  }

  predicate IsUpper(c: char) {
    'A' <= c <= 'Z'
  }

  function UpperChar(c: char): (u: char)
    ensures !IsLower(u)
    ensures IsLower(c) ==> IsUpper(u) && u as int == c as int - 32
    ensures !IsLower(c) ==> u == c
  {
    if IsLower(c) then (c as int - 32) as char else c
  }

  function LowerChar(c: char): (l: char)
    ensures !IsUpper(l)
    ensures IsUpper(c) ==> IsLower(l) && l as int == c as int + 32
    ensures !IsUpper(c) ==> l == c
  {
    if IsUpper(c) then (c as int + 32) as char else c
  }

  /** Python's `s.upper()` on ASCII letters. */
  function Upper(s: string): (u: string)
    ensures |u| == |s|
    ensures forall i :: 0 <= i < |s| ==> u[i] == UpperChar(s[i])
  {
    if |s| == 0 then [] else [UpperChar(s[0])] + Upper(s[1..])
  }

  /** Upper-casing introduces no character other than upper-case letters. */
  lemma UpperAvoids(s: string, c: char)
    requires c !in s && !IsUpper(c)
    ensures c !in Upper(s)
  {
    var u := Upper(s);
    forall i | 0 <= i < |u|
      ensures u[i] != c
    {
      assert u[i] == UpperChar(s[i]);
    }
  }

  /** Python's `s.lower()` on ASCII letters. */
  function Lower(s: string): (l: string)
    ensures |l| == |s|
    ensures forall i :: 0 <= i < |s| ==> l[i] == LowerChar(s[i])
  {
    if |s| == 0 then [] else [LowerChar(s[0])] + Lower(s[1..])
  }

  /** The characters for which Python's `str.isspace()` holds. */
  predicate IsSpace(c: char) {
    || c == ' ' || ('\t' <= c <= '\r') || ('\U{1C}' <= c <= '\U{1F}')
    || c == '\U{85}' || c == '\U{A0}' || c == '\U{1680}' || ('\U{2000}' <= c <= '\U{200A}')
    || c == '\U{2028}' || c == '\U{2029}' || c == '\U{202F}' || c == '\U{205F}' || c == '\U{3000}'
  }

  /** A text ending in a suffix that does not end in whitespace does not either. */
  lemma StrippedSuffix(s: string, suffix: string)
    requires EndsWith(s, suffix) && Stripped(suffix) && |suffix| > 0
    ensures Stripped(s) && |s| > 0
  {
    assert s[|s| - 1] == s[|s| - |suffix|..][|suffix| - 1];
  }

  /** Python's `s.rstrip()`: the longest prefix that does not end in whitespace. */
  function Rstrip(s: string): (r: string)
    ensures r <= s
    ensures |r| == 0 || !IsSpace(r[|r| - 1])
    ensures forall i :: |r| <= i < |s| ==> IsSpace(s[i])
  {
    if |s| > 0 && IsSpace(s[|s| - 1]) then Rstrip(s[..|s| - 1]) else s
  }

  /** Python's `s.lstrip()`: the longest suffix that does not start with whitespace. */
  function Lstrip(s: string): (r: string)
    ensures |r| <= |s| && r == s[|s| - |r|..]
    ensures |r| == 0 || !IsSpace(r[0])
    ensures forall i :: 0 <= i < |s| - |r| ==> IsSpace(s[i])
  {
    if |s| > 0 && IsSpace(s[0]) then Lstrip(s[1..]) else s
  }

  /** Python's `s.strip()`. */
  function Strip(s: string): string {
    Rstrip(Lstrip(s))
  }

  /** A string that neither starts nor ends with whitespace is its own strip. */
  lemma StripUnchanged(s: string)
    requires |s| > 0 && !IsSpace(s[0]) && !IsSpace(s[|s| - 1])
    ensures Strip(s) == s
  {
    assert Lstrip(s) == s;
  }

  /**
   * The lines Python yields when iterating over a text file with this content,
   * without their line terminators: the pieces between newlines, except that a
   * final newline does not start another line.
   */
  function FileLines(content: string): (lines: seq<string>)
    ensures forall i :: 0 <= i < |lines| ==> '\n' !in lines[i]
    ensures |lines| == 0 <==> content == []
    ensures |lines| > 0 ==> content == Join(lines, '\n') || content == Join(lines, '\n') + "\n"
  {
    var parts := Split(content, '\n');
    if parts[|parts| - 1] == [] then
      if |parts| > 1 then
        JoinAppend(parts[..|parts| - 1], [[]], '\n');
        assert parts[..|parts| - 1] + [[]] == parts;
        assert Join(parts[..|parts| - 1], '\n') + ['\n'] + Join([[]], '\n') == Join(parts[..|parts| - 1], '\n') + "\n";
        parts[..|parts| - 1]
      else parts[..|parts| - 1]
    else parts
  }

  /** `[f.rstrip() for f in open(path)]` for a file with this content. */
  function StrippedLines(content: string): (lines: seq<string>)
    ensures |lines| == |FileLines(content)|
    ensures forall i :: 0 <= i < |lines| ==> lines[i] == Rstrip(FileLines(content)[i])
    ensures forall i :: 0 <= i < |lines| ==> '\n' !in lines[i] && Stripped(lines[i])
  {
    var raw := FileLines(content);
    seq(|raw|, i requires 0 <= i < |raw| => Rstrip(raw[i]))
  }

  /** Each separator in a join sits between two parts, so there is one fewer than parts. */
  lemma {:induction false} JoinCount(parts: seq<string>, sep: char)
    requires |parts| > 0 && Separable(parts, sep)
    ensures multiset(Join(parts, sep))[sep] == |parts| - 1
    decreases |parts|
  {
    if |parts| > 1 {
      SeparableTail(parts, sep);
      JoinCount(parts[1..], sep);
      var tail := Join(parts[1..], sep);
      assert multiset(parts[0] + [sep] + tail) == multiset(parts[0]) + multiset([sep]) + multiset(tail);
    } else {
      assert sep !in parts[0];
    }
  }

  /** The last piece of a join is a suffix of it, preceded by the separator when there are more pieces. */
  lemma {:induction false} LastPieceIsSuffix(parts: seq<string>, sep: char)
    requires |parts| > 0
    ensures var s := Join(parts, sep); var last := parts[|parts| - 1];
      |last| <= |s| && s[|s| - |last|..] == last
      && (|parts| > 1 ==> |last| < |s| && s[|s| - |last| - 1] == sep)
    decreases |parts|
  {
    if |parts| > 1 {
      LastPieceIsSuffix(parts[1..], sep);
    }
  }

  /**
   * A file has one line per newline, plus one for text after the last
   * newline: a final newline ends a line rather than starting an empty one.
   */
  lemma LineCount(content: string)
    ensures |StrippedLines(content)|
      == multiset(content)['\n'] + (if |content| > 0 && content[|content| - 1] != '\n' then 1 else 0)
  {
    var parts := Split(content, '\n');
    JoinCount(parts, '\n');
    LastPieceIsSuffix(parts, '\n');
    var last := parts[|parts| - 1];
    if last != [] {
      assert content[|content| - 1] == last[|last| - 1];
      assert last[|last| - 1] in last;
    }
  }

  /** A line with no trailing whitespace is unchanged by `rstrip`. */
  predicate Stripped(line: string) {
    |line| == 0 || !IsSpace(line[|line| - 1])
  }

  lemma RstripStripped(line: string)
    requires Stripped(line)
    ensures Rstrip(line) == line
  {
  }

  /** `rstrip` changes no line that has no trailing whitespace. */
  lemma StrippedLinesOfStripped(content: string)
    requires forall i :: 0 <= i < |FileLines(content)| ==> Stripped(FileLines(content)[i])
    ensures StrippedLines(content) == FileLines(content)
  {
    var raw := FileLines(content);
    var read := StrippedLines(content);
    forall i | 0 <= i < |raw|
      ensures read[i] == raw[i]
    {
      RstripStripped(raw[i]);
    }
  }

  /** Adding a final newline to joined lines adds one empty piece. */
  lemma SplitFinalNewline(lines: seq<string>)
    requires |lines| > 0 && Separable(lines, '\n')
    ensures Split(Join(lines, '\n') + "\n", '\n') == lines + [[]]
  {
    SplitAppend(Join(lines, '\n'), [], '\n');
    assert Join(lines, '\n') + ['\n'] + [] == Join(lines, '\n') + "\n";
    SplitJoin(lines, '\n');
  }

  /**
   * The lines of a file whose lines are joined by newlines, with or without a
   * final newline, are those lines, provided each is free of newlines and,
   * when there is no final newline, the last one is not empty.
   */
  lemma FileLinesOfJoin(lines: seq<string>, finalNewline: bool)
    requires |lines| > 0 && Separable(lines, '\n')
    requires !finalNewline ==> lines[|lines| - 1] != []
    ensures FileLines(Join(lines, '\n') + (if finalNewline then "\n" else "")) == lines
  {
    if finalNewline {
      SplitFinalNewline(lines);
      assert (lines + [[]])[..|lines|] == lines;
    } else {
      assert Join(lines, '\n') + "" == Join(lines, '\n');
      SplitJoin(lines, '\n');
    }
  }

  /**
   * Reading back lines written one per line gives them again, when they are
   * also free of trailing whitespace, which `rstrip` would remove.
   */
  lemma ReadBackLines(lines: seq<string>, finalNewline: bool)
    requires |lines| > 0 && Separable(lines, '\n')
    requires forall i :: 0 <= i < |lines| ==> Stripped(lines[i])
    requires !finalNewline ==> lines[|lines| - 1] != []
    ensures StrippedLines(Join(lines, '\n') + (if finalNewline then "\n" else "")) == lines
  {
    FileLinesOfJoin(lines, finalNewline);
    StrippedLinesOfStripped(Join(lines, '\n') + (if finalNewline then "\n" else ""));
  }
}
